=== FILE: README.md ===
# Movie autocomplete widget, modelled in Dafny

A model of a small browser widget that searches a movie catalog as the user
types. The widget (`autocomplete`) debounces the input, searches once the text
has at least three characters, shows one section per item type that found
something (or a "no results" view), lets every section load further pages
with its "Load more" button, and reports the row the user clicks. The page
that wires it up (`main.js`) converts the catalog's raw records into widget
items and supplies a paginated loader. The catalog client (`api.js`) builds
the request URLs and fans a title search out over the three item types.

Modules, one per part of the program:

- `JsValues`, `JsObject`, `Text`: the JavaScript semantics the code relies on.
  These are `undefined`/`null`, `??` and `||` on strings; plain objects as
  ordered association lists (`Object.keys` order, property assignment, object
  spread); and `join` and the decimal text of a page number. `Text` also
  holds what the program does not call but the model needs to read a request
  back: `split`, which the model of a server's query parser uses, and the
  URL parser's trimming and removal of tabs and newlines.
- `Api` (`src/api.js`): the item types, the request's parameter string and
  URL, `findByType`'s parameter order, and `findAllByTitle`'s fan-out and
  positional zip.
- `Convert` (`src/main.js`): `convertMovie`, `convertType`, `convertTypes`, the
  search the widget is configured with, and `loadMore`'s request.
- `PageLoader` (`src/main.js`): `createPaginatedMovieLoader`. The state holds
  both the initial objects and the copies, plus a flag saying which ones the
  current variables point at.
- `Components` (`src/autocomplete/autocomplete.js`): rows, a section component
  with its button and click dispatch, and the no-results view.
- `Debounce` (`src/autocomplete/autocomplete.js`): `debounce` as one pending
  slot that every call overwrites.
- `Autocomplete` (`src/autocomplete/autocomplete.js`): the widget state and one
  function per event. The events are:
  - keyup;
  - the debounce delay running out;
  - a search settling;
  - a click outside;
  - a click inside a section;
  - a "load more" settling.

  Searches and loads settle in any order, because the code never checks a
  response against the request it answers.

Three things the code does not do, which the model states:

- The loader never resets its page counters. A change of text points the
  current counters at the initial object itself, and the next increment
  mutates that object, so every later request of a type counts on.
- The loader records that a page of a type came back empty, but nothing
  reads that record, so "load more" never stops asking.
- Search responses are not checked against the text they were asked for:
  whichever search settles last is shown.

The configured no-results message is handed to the no-results view as its
whole data argument instead of as `{ message }`, so the view always shows its
default message. It is recorded under "## Findings" below.

## Model

| member | source | states |
|---|---|---|
| `Api.TypeNameRoundTrip` | src/api.js:1-5 | Each item type's name is the type itself: names and types correspond one to one. |
| `Api.ItemTypesExact` | src/api.js:1-7 | The type list has exactly three entries, named "movie", "series" and "episode" in that order, and covers every type once. |
| `Api.QueryStringRoundTrip` | src/api.js:13-18 | A server splitting the query at "&" and each pair at its first "=" reads the API key and then exactly the request's parameters, in key order. This holds when no name or value holds "&", "#", "+" or "%", and no name holds "=". With no parameters, the trailing "&" yields one extra empty pair. |
| `Api.SafeUrlSentWhole` | src/api.js:18 | A request is sent whole when its names and values avoid "&", "#", "+", "%", tabs and newlines and its last value does not end in a space or control character. `fetch`'s URL parser then trims nothing, removes nothing and cuts no fragment. |
| `Api.RequestUrlShape` | src/api.js:18 | The URL is the base path, then "?", then the query string. |
| `Api.UnescapedValueInjectsParameter` | src/api.js:14-16 | Values are not escaped: the search text "a&b=c" reaches the server as two parameters, `s=a` and `b=c`. |
| `Api.SearchUrlShape` | src/api.js:14-18 | A title search's URL is a fixed prefix for its type followed by the search text exactly as typed. |
| `Api.SentSearch` | src/api.js:14-18 | What `fetch` sends for a title search is the type's prefix, then the search text after the URL parser's clean-up. Trailing spaces and control characters are gone, tabs and newlines are removed, and everything from the first "#" on is cut. |
| `Api.FragmentCutsSearch` | src/api.js:14-18 | A "#" in the search text is not escaped, so it starts a fragment that `fetch` does not send: a search for "C#" asks the server for "C". |
| `Api.TrailingBlanksDropped` | src/api.js:14-18 | Spaces and control characters at the end of the search text count towards its length in the widget but are not sent: the request is the one for the text without them. |
| `Api.PaddedSearchSentTrimmed` | src/api.js:14-18 | The text "ab " has three characters, yet the request asks the server for "ab". |
| `Api.FindByTypeParams` | src/api.js:23 | "type" is the first key and the caller's keys follow in their own order. A caller's own "type" overrides the value but keeps the first position. Every other key reads as the caller's. |
| `Api.SearchParams` | src/api.js:27-29 | A title search for one type sends exactly `type` and then `s`. |
| `Api.ZipByType` | src/api.js:30 | Three responses become an object with keys movie, series and episode, in that order. The i-th response is filed under the i-th type. |
| `Api.AllTypes` | src/api.js:28-30 | One lookup per type, each filed under that type's name; the keys are exactly the three type names in order. |
| `Api.FindAllByTitle` | src/api.js:27-30 | One lookup per type, each with that type's search URL, filed under the type's name; the keys are exactly the three type names in order. |
| `Convert.ConvertMovie` | src/main.js:2-6 | The id is the imdbID and the title is `Title (Year)`. The image is `null` exactly when the poster is "N/A", and the poster unchanged otherwise. |
| `Convert.ConvertedRowImage` | src/main.js:4 | A converted record's default row shows the placeholder exactly when the poster is "N/A", and otherwise the poster itself, even an empty one. |
| `Convert.ConvertType` | src/main.js:8 | A missing `Search` gives no items. Otherwise every record is converted, with length and order kept. |
| `Convert.AssignEach` | src/main.js:11-13 | Each step of the `reduce` appends a distinct new key with its own value, in visiting order, and leaves the accumulator's entries alone. |
| `Convert.ConvertTypes` | src/main.js:10-14 | The same keys in the same order, each key's response converted on its own, and nothing else. |
| `Convert.FindAllByTitle` | src/main.js:16 | The configured search gives keys movie, series and episode. Each holds the converted response of that type's lookup. |
| `Convert.PageParams` | src/main.js:53 | The parameters of a page request are `s` and then `page`. |
| `Convert.PageRequestParams` | src/main.js:52-53 | A page request sends `type`, then `s`, then `page`. |
| `Convert.PageUrl` | src/api.js:13-23 | The URL of a page request is the base path, the API key, then `type`, `s` and `page` with the type name, the text and the page number's decimal text, none escaped. |
| `Convert.PageSentWhole` | src/main.js:52-53 | A page request whose text avoids "&", "#", "+", "%", tabs and newlines is sent whole. The page number comes last, so trailing spaces of the text are kept. |
| `Convert.PageQueryReadsBack` | src/main.js:52-53 | A page request whose text avoids "&", "#", "+", "%", tabs and newlines is sent whole. It is read back as the API key, the type, the text and the page number, in that order. |
| `Convert.LoadPage` | src/main.js:52-53 | One page of one type is the converted response of the URL naming the type, then the text, then the page number. |
| `PageLoader.With` | src/main.js:43 | Assigning one type's entry changes that entry only. |
| `PageLoader.Call` | src/main.js:35-43 | The page requested is one more than the current counter of its own type, which now holds it; the other types' counters keep their values. A new text switches to the initial objects and counts from their values; the text is remembered. The flags are untouched. |
| `PageLoader.Settle` | src/main.js:43-48 | An empty page sets the current flag of its type, and only that one. A non-empty page changes nothing. The counters stay as they were, and the items are passed on unchanged. |
| `PageLoader.ReplayPages` | src/main.js:18-50 | Over any run of calls and arrivals, a request asks for its type's count at the start plus the number of requests of that type so far, this one included. Neither the texts nor the arrivals play any part. |
| `PageLoader.FreshPages` | src/main.js:19-43 | From a new loader, the n-th request of a type over the loader's whole life asks for page n + 1. |
| `PageLoader.PagesIncrease` | src/main.js:36-43 | Across the loader's life, each request of a type asks for a later page than every earlier request of that type. |
| `PageLoader.FirstCallPage` | src/main.js:19-23 | The first request of a new loader asks for page 2. |
| `PageLoader.NoResetAfterValueChange` | src/main.js:36-39 | "abc" then "xyz" on the same type ask for pages 2 and 3: a text change does not restart the count. |
| `PageLoader.FlagsNeverGate` | src/main.js:35-43 | The page a call asks for does not depend on the "next page available" flags. |
| `PageLoader.FlagsStaySet` | src/main.js:36-47 | Once the loader points at the initial objects, a set flag stays set through every later call and arrival. |
| `PageLoader.ResetCall` | src/main.js:31-39 | The loader with fresh copies on reset: on a new text the request asks for page 2, the flags all read false, and the other types' counters read 1. With the same text it counts on. |
| `PageLoader.ResetCallRestarts` | src/main.js:31-39 | With fresh copies, a new text asks for page 2 again, and the same text asks for page 3. |
| `Components.ItemRowShape` | src/autocomplete/autocomplete.js:145-154 | A default row keeps the item's id and title. It shows the placeholder exactly when the image is `null` or `undefined`, and otherwise the item's own image, an empty one included. |
| `Components.CreateSection` | src/autocomplete/autocomplete.js:156-171 | A new section has one row per item, drawn with the caller's template when one is given and with the default one otherwise. Its button is enabled and reads "Load more". |
| `Components.SetLoadingState` | src/autocomplete/autocomplete.js:109-119 | Only the button changes: it is disabled and reads "Loading..." while loading, and is enabled and reads "Load more" afterwards. |
| `Components.AddItems` | src/autocomplete/autocomplete.js:102-107 | The existing rows stay first. One default-template row per new item follows, in order. |
| `Components.Dispatch` | src/autocomplete/autocomplete.js:81-91 | A click asks for more items exactly when it lands on an enabled button, and selects exactly when it lands on a row, with that row's id. |
| `Components.NoResultsTextOfObject` | src/autocomplete/autocomplete.js:67-78 | Given `{ message }`, the view shows a non-empty message, and the default message otherwise. |
| `Components.ConfiguredMessageNeverShown` | src/autocomplete/autocomplete.js:242-248 | The configured message itself is the view's data. The default message is always shown, unless the configured message is `null`, in which case building the view throws. |
| `Debounce.BurstThenElapse` | src/autocomplete/autocomplete.js:5-11 | A burst of calls followed by the delay running out calls the function exactly once, with the last call's arguments. |
| `Debounce.RunNeverAddsCalls` | src/autocomplete/autocomplete.js:5-11 | Over any run, the function is called at most once per debounced call, counting the one still pending. It is only called with arguments some call passed. |
| `Autocomplete.TypeAll` | src/autocomplete/autocomplete.js:194-197 | After a burst of keyups, the current text is the last text typed and the timer holds it. Nothing else changes. |
| `Autocomplete.TypingBurst` | src/autocomplete/autocomplete.js:178-211 | A burst of typing then the delay running out searches once for the last text if it is long enough. Otherwise it searches nothing and hides the dropdown. The widget's timer follows the debounce model. |
| `Autocomplete.Keyup` | src/autocomplete/autocomplete.js:194-197 | A keyup keeps the text as typed and arms the debounce timer with it. Nothing else changes. |
| `Autocomplete.InputChange` | src/autocomplete/autocomplete.js:199-211 | A text shorter than three characters only hides the dropdown. A longer one only shows the spinner and adds a search for exactly that text. |
| `Autocomplete.TimerElapses` | src/autocomplete/autocomplete.js:9 | A pending text reaches the change handler once and the slot empties. With nothing pending, nothing changes. |
| `Autocomplete.ClickOutside` | src/autocomplete/autocomplete.js:213-215 | The dropdown is hidden and nothing else changes. |
| `Autocomplete.FilledSectionsMembers` | src/autocomplete/autocomplete.js:218-224 | The sections shown are exactly the result keys whose list has items. |
| `Autocomplete.FilledSectionsOrdered` | src/autocomplete/autocomplete.js:222-224 | The sections shown follow the results' key order, each key once. |
| `Autocomplete.CreateSections` | src/autocomplete/autocomplete.js:222-224 | One new section per filled name, holding that name's own items, drawn with the configured template. |
| `Autocomplete.ShowResults` | src/autocomplete/autocomplete.js:236-240 | The new sections replace all the dropdown's children, in order, and the dropdown is shown. Nothing else changes. |
| `Autocomplete.ShownResults` | src/autocomplete/autocomplete.js:236-240 | Once results are shown, the dropdown is open and displays exactly the new section components, in order. |
| `Autocomplete.ShowEmptyResults` | src/autocomplete/autocomplete.js:242-248 | A single no-results view replaces the children and the dropdown is shown; with any configured message other than `null` it reads the default message. When building the view throws, nothing changes. |
| `Autocomplete.ShowConfiguredEmptyResults` | src/autocomplete/autocomplete.js:242-248 | With the view built from `{ message }`, a non-empty configured message is shown, and the default message otherwise; building the view never throws. |
| `Autocomplete.ConfiguredMessageLost` | src/main.js:61-62 | With the program's own configured message, an empty search shows the default message; built from `{ message }`, the view would show the configured one. |
| `Autocomplete.SearchFinish` | src/autocomplete/autocomplete.js:217-248 | When some list has items, the dropdown opens on exactly one new section per such list, in key order, each built from its own list with the configured template. When no list has items, it opens on the no-results view with the default message, whatever message is configured; a `null` message throws and leaves the widget unchanged. Nothing but the children, the sections and the dropdown's visibility changes. |
| `Autocomplete.SearchSettles` | src/autocomplete/autocomplete.js:207-210 | A settled search hides the spinner, even while other searches are still pending, and then shows its results. |
| `Autocomplete.SectionClick` | src/autocomplete/autocomplete.js:81-100 | Only a section on the shown dropdown can be clicked. A click on an enabled "Load more" disables that button and asks for more items with the text now in the input, and changes nothing else. A row click reports the row's id and changes nothing else. Anything else changes nothing. |
| `Autocomplete.LoadSettles` | src/autocomplete/autocomplete.js:96-99 | A settled "load more" re-enables its section's button, even for zero items, and appends the items with the default template. Only that section and the pending loads change. |
| `Autocomplete.NoResultsIffAllEmpty` | src/autocomplete/autocomplete.js:217-230 | With a message configured, a settled search shows the no-results view exactly when every list is empty. |
| `Autocomplete.LastSettledWins` | src/autocomplete/autocomplete.js:207-210 | What the dropdown shows after a search settles depends only on that search's results, whatever was shown before and whichever search it was. The exception is a `null` configured message with every list empty: building the no-results view then throws and the old dropdown stays. |
| `Autocomplete.NullMessageKeepsView` | src/autocomplete/autocomplete.js:207-210 | With a `null` configured message and every list empty, a settled search leaves the dropdown showing what it showed before. |
| `Autocomplete.StaleResultsShown` | src/autocomplete/autocomplete.js:199-230 | When the search for "abcd" settles before the earlier one for "abc", the dropdown ends up showing the results for "abc" although "abcd" is in the input. |
| `Autocomplete.ShortTextHidesUntilSettle` | src/autocomplete/autocomplete.js:199-211 | A short text hides the dropdown, but a search still pending shows it again when it settles. |
| `Autocomplete.LoadMoreUsesTypedText` | src/autocomplete/autocomplete.js:232-234 | Typing "ab" and clicking "Load more" before the delay runs out asks with "ab", not with the text of the results on display. |
| `Autocomplete.DetachedLoadInvisible` | src/autocomplete/autocomplete.js:93-107 | A "load more" whose section a later search replaced settles without any visible effect. |
| `Autocomplete.ShownLoadAppends` | src/autocomplete/autocomplete.js:93-119 | A "load more" on a shown section displays the old rows followed by default-template rows for the new items, and its button reads "Load more" again. |
| `Autocomplete.InitialTracked` | src/autocomplete/autocomplete.js:93-119 | As mounted, the widget is well formed and has no disabled button and no pending "load more". |
| `Autocomplete.StepKeepsTracked` | src/autocomplete/autocomplete.js:81-248 | Every event keeps the "load more" bookkeeping: a section's button is disabled exactly while a load of that section is pending, it then reads "Loading...", and no section has two loads pending. |
| `Autocomplete.SearchSettlesTracked` | src/autocomplete/autocomplete.js:217-240 | A settled search adds sections with enabled buttons and no pending loads, and keeps the bookkeeping. |
| `Autocomplete.SectionClickTracked` | src/autocomplete/autocomplete.js:81-100 | A click keeps the bookkeeping: "load more" is asked only of a section with none pending, whose button it disables. |
| `Autocomplete.LoadSettlesTracked` | src/autocomplete/autocomplete.js:96-99 | A settled load removes the only pending load of its section, whose button it re-enables. |
| `Autocomplete.RemoveLoad` | src/autocomplete/autocomplete.js:96-99 | Removing a section's only pending load leaves exactly the other sections pending, each with one load. |
| `Autocomplete.NoSecondLoad` | src/autocomplete/autocomplete.js:81-99 | While a section's load is pending, its button reads "Loading..." and a click on it asks for nothing. |

## Left out

- The network round trip, `fetch` followed by `r.json()`, is a function parameter from URL to decoded response. Failed or rejected requests are not modelled, so a search whose promise rejects, which would leave the spinner shown, does not occur.
- Promise scheduling is reduced to settle events that may come in any order. Each settle event carries whatever value the lookup produced.
- Timers: `setTimeout`/`clearTimeout` and `SEARCH_TIMEOUT` (500 ms) are reduced to one pending slot and an event for the delay running out.
- DOM machinery, HTML markup and CSS classes are left out, and so are the `AbstractComponent` base class's guards. A row keeps only its id, image source and caption; a button keeps only its state and caption; the dropdown and spinner keep only their visibility.
- The dropdown's and spinner's visibility before the first event comes from the stylesheet, which is not part of this model. Both start hidden here.
- The bootstrap in `src/main.js:55-63` and the `autocomplete(element, config)` factory are left out, including the `noop` callbacks for an unconfigured widget. The widget takes its item template and no-results message as a `Config`. `onSelectItem` becomes a list of reported ids.
- `PageLoader.Call` takes an `ItemType`. The widget passes a section's name, which in this program is always one of the three type names.
- Custom item templates receive `(item, index, array)` from `map`; they are modelled as functions of the item alone.
- `Autocomplete.InputChange` compares the text's length in characters, while JavaScript counts UTF-16 code units. The two differ for characters outside the Basic Multilingual Plane.
- The catalog's record fields are taken to be strings. Missing `Title` or `Year` fields, which JavaScript would render as "undefined", are not modelled.
- `JsObject` orders keys by insertion. JavaScript orders integer-like keys first, but no object in this program has such keys.
- `Api.QueryStringRoundTrip`: the server's own decoding of "+" as a space and of "%XX" sequences is not modelled, and neither is the URL parser's clean-up. The round trip is therefore stated only for names and values without "+", "%" and "#". `Api.SentUrl` and the lemmas on it state what the URL parser does to a request.
- `Api.SentUrl` models three steps of `fetch`'s URL parsing: trimming C0 controls and spaces at both ends, removing tabs and newlines, and cutting the fragment. The parser also percent-encodes spaces, other controls and non-ASCII characters in the query, and a server decodes them back; that encoding is not modelled.
- Nothing in the model calls the loader with the widget's requests. The widget records each `onLoadMore` call, and the loader is modelled on its own.

## Findings

| source | as written | input that shows it | evidently intended | confidence | as-written member | corrected member |
|---|---|---|---|---|---|---|
| src/main.js:36-39 | A text change points the counters at `initialPageType` and `initialNextPageAvailable` themselves. The `++` on line 43 then mutates the initial object, so no later text change restarts the count. | `loader("abc", "movie")` then `loader("xyz", "movie")` request pages 2 and 3 | On a text change, point the counters at fresh copies, as lines 31-32 do on creation, so that the first request for the new text asks for page 2 | not executed | `PageLoader.NoResetAfterValueChange` | `PageLoader.ResetCallRestarts` |
| src/autocomplete/autocomplete.js:242-243 | `showEmptyResults` passes `this.data.noResultsMessage` itself as the view's data. The view's `getTemplate({ message })` destructures a string, finds no `message`, and shows the default text; a `null` message throws. | the program's configuration, `noResultsMessage: 'Looking for movies, series or episodes? Try entering a different name'`, and a search with no results | Build the view from `{ message: this.data.noResultsMessage }`, so that the configured message is shown | not executed | `Autocomplete.ConfiguredMessageLost` | `Autocomplete.ShowConfiguredEmptyResults` |

=== FILE: api.dfy ===
/**
 The catalog client (src/api.js): the three item types, the query string and
 URL of a request, the parameter order of a per-type lookup, and the fan-out
 of a title search over every type with its positional zip.
 The network round trip (`fetch` and `r.json()`) is a function parameter.
 */
module Api {
  import opened JsValues
  import opened JsObject
  import Text

  datatype ItemType = Movie | Series | Episode

  /** The `ItemType` object maps each name to itself. */
  function TypeName(t: ItemType): string
  {
    match t
    case Movie => "movie"
    case Series => "series"
    case Episode => "episode"
  }

  function ParseType(s: string): Nullish<ItemType>
  {
    if s == "movie" then Present(Movie)
    else if s == "series" then Present(Series)
    else if s == "episode" then Present(Episode)
    else Undefined
  }

  /** `Object.keys(ItemType)`. */
  const ItemTypes: seq<ItemType> := [Movie, Series, Episode]

  /** Type names and types are in one-to-one correspondence. */
  lemma TypeNameRoundTrip(t: ItemType, s: string)
    ensures ParseType(TypeName(t)) == Present(t)
    ensures ParseType(s) == Present(t) <==> s == TypeName(t)
  {
  }

  /** The type list names "movie", "series" and "episode", in that order, each once. */
  lemma ItemTypesExact()
    ensures |ItemTypes| == 3
    ensures forall t: ItemType :: t in ItemTypes
    ensures forall i, j | 0 <= i < j < |ItemTypes| :: ItemTypes[i] != ItemTypes[j]
    ensures TypeName(ItemTypes[0]) == "movie"
    ensures TypeName(ItemTypes[1]) == "series"
    ensures TypeName(ItemTypes[2]) == "episode"
  {
    forall t: ItemType
      ensures t in ItemTypes
    {
      match t
      case Movie => assert ItemTypes[0] == t;
      case Series => assert ItemTypes[1] == t;
      case Episode => assert ItemTypes[2] == t;
    }
  }

  const ApiKey: string := "3e7bc136"
  const BasePath: string := "http://www.omdbapi.com/"

  /** A request parameter value: the search text or a page number. */
  datatype Param = Str(s: string) | Num(n: nat)

  /** `${value}` inside a template literal. */
  function Stringify(p: Param): string
  {
    match p
    case Str(s) => s
    case Num(n) => Text.Decimal(n)
  }

  /** One `name=value` pair, the value written as is (no escaping). */
  function Pair(e: Entry<Param>): string
  {
    e.key + "=" + Stringify(e.val)
  }

  function Pairs(params: Obj<Param>): seq<string>
  {
    seq(|params|, i requires 0 <= i < |params| => Pair(params[i]))
  }

  /** The parameter string of `createRequest`: the pairs in key order, joined by "&". */
  function ParamString(params: Obj<Param>): string
  {
    Text.Join(Pairs(params), "&")
  }

  /** The query part of the request URL: the API key, then "&", then the parameters. */
  function QueryString(params: Obj<Param>): string
  {
    "apiKey=" + ApiKey + "&" + ParamString(params)
  }

  /** The URL `createRequest` fetches. */
  function RequestUrl(params: Obj<Param>): string
  {
    BasePath + "?" + QueryString(params)
  }

  /** How a server reads a query string: split at "&", then each pair at its first "=". */
  function ParseQuery(q: string): seq<(string, string)>
  {
    var pairs := Text.Split(q, '&');
    seq(|pairs|, i requires 0 <= i < |pairs| => Text.SplitAtFirst(pairs[i], '='))
  }

  /** The text before the first "?" of a URL, and the query after it. */
  lemma RequestUrlShape(params: Obj<Param>)
    ensures Text.SplitAtFirst(RequestUrl(params), '?') == (BasePath, QueryString(params))
  {
    assert RequestUrl(params) == BasePath + ['?'] + QueryString(params);
    Text.SplitAtFirstOf(BasePath, '?', QueryString(params));
  }

  /** The name/value pairs a well-behaved server sees for `params`. */
  function Decoded(params: Obj<Param>): seq<(string, string)>
  {
    seq(|params|, i requires 0 <= i < |params| => (params[i].key, Stringify(params[i].val)))
  }

  /**
   A text that reaches the server as written: "&" would end its pair and "#"
   the whole query, and a server decodes "+" and "%" sequences.
   */
  predicate SafeText(s: string)
  {
    '&' !in s && '#' !in s && '+' !in s && '%' !in s
  }

  /** Safe names without "=" and safe values: the query string reads back unambiguously. */
  predicate SafeParams(params: Obj<Param>)
  {
    forall i | 0 <= i < |params| ::
      SafeText(params[i].key) && '=' !in params[i].key && SafeText(Stringify(params[i].val))
  }

  /**
   The server sees the API key followed by exactly the request's parameters,
   in key order, when no name or value needs escaping; with no parameters the
   trailing "&" adds one empty pair.
   */
  lemma QueryStringRoundTrip(params: Obj<Param>)
    requires SafeParams(params)
    ensures |params| > 0 ==> ParseQuery(QueryString(params)) == [("apiKey", ApiKey)] + Decoded(params)
    ensures |params| == 0 ==> ParseQuery(QueryString(params)) == [("apiKey", ApiKey), ("", "")]
  {
    var all := QueryParts(params);
    SplitQuery(params);
    var parsed := ParseQuery(QueryString(params));
    assert |parsed| == |all|;
    assert parsed[0] == ("apiKey", ApiKey) by {
      assert all[0] == "apiKey" + ['='] + ApiKey;
      Text.SplitAtFirstOf("apiKey", '=', ApiKey);
    }
    if |params| > 0 {
      ParsedPairs(params);
      assert parsed == [("apiKey", ApiKey)] + Decoded(params);
    } else {
      assert all[1] == "";
      assert parsed[1] == Text.SplitAtFirst("", '=');
    }
  }

  /** After the API key, the server reads each parameter back in turn. */
  lemma ParsedPairs(params: Obj<Param>)
    requires SafeParams(params) && |params| > 0
    ensures |ParseQuery(QueryString(params))| == |params| + 1
    ensures forall i | 0 <= i < |params| :: ParseQuery(QueryString(params))[i + 1] == Decoded(params)[i]
  {
    var all := QueryParts(params);
    SplitQuery(params);
    var parsed := ParseQuery(QueryString(params));
    forall i | 0 <= i < |params|
      ensures parsed[i + 1] == Decoded(params)[i]
    {
      assert all[i + 1] == Pairs(params)[i];
      PairReadsBack(params, i);
    }
  }

  /** The pieces of the query string between its "&" separators. */
  function QueryParts(params: Obj<Param>): seq<string>
  {
    ["apiKey=" + ApiKey] + (if |params| == 0 then [""] else Pairs(params))
  }

  /** Splitting a safe query string at "&" gives back its pieces. */
  lemma SplitQuery(params: Obj<Param>)
    requires SafeParams(params)
    ensures Text.Split(QueryString(params), '&') == QueryParts(params)
  {
    var all := QueryParts(params);
    QueryStringJoin(params, all);
    forall i | 0 <= i < |all|
      ensures '&' !in all[i]
    {
      if i > 0 && |params| > 0 {
        PairHasNoAmpersand(params, i - 1);
      }
    }
    Text.SplitJoin(all, '&');
  }

  lemma QueryStringJoin(params: Obj<Param>, all: seq<string>)
    requires all == ["apiKey=" + ApiKey] + (if |params| == 0 then [""] else Pairs(params))
    ensures Text.Join(all, "&") == QueryString(params)
  {
    if |params| == 0 {
      assert ParamString(params) == "";
    } else {
      assert all[1..] == Pairs(params);
    }
  }

  lemma PairHasNoAmpersand(params: Obj<Param>, i: nat)
    requires SafeParams(params) && i < |params|
    ensures '&' !in Pairs(params)[i]
  {
    var e := params[i];
    assert Pairs(params)[i] == e.key + "=" + Stringify(e.val);
  }

  lemma PairReadsBack(params: Obj<Param>, i: nat)
    requires SafeParams(params) && i < |params|
    ensures Text.SplitAtFirst(Pairs(params)[i], '=') == Decoded(params)[i]
  {
    var e := params[i];
    assert Pairs(params)[i] == e.key + ['='] + Stringify(e.val);
    Text.SplitAtFirstOf(e.key, '=', Stringify(e.val));
  }

  /**
   The part of a URL that `fetch` sends. The URL parser strips leading and
   trailing C0 controls and spaces, then takes out every tab and newline;
   from the first "#" on is the fragment, which stays behind.
   */
  function SentUrl(url: string): string
  {
    Text.SplitAtFirst(Text.RemoveTabsAndNewlines(Text.TrimStart(Text.TrimEnd(url))), '#').0
  }

  /**
   Parameters the URL parser leaves as they are: no name or value holds a
   tab or a newline, and the last value does not end in a control or a space.
   */
  predicate Unstripped(params: Obj<Param>)
  {
    && (forall i | 0 <= i < |params| ::
          Text.NoTabOrNewline(params[i].key) && Text.NoTabOrNewline(Stringify(params[i].val)))
    && (|params| == 0 || Text.EndsKept(Stringify(params[|params| - 1].val)))
  }

  /** A request with safe parameters that the URL parser leaves alone is sent whole. */
  lemma SafeUrlSentWhole(params: Obj<Param>)
    requires SafeParams(params) && Unstripped(params)
    ensures SentUrl(RequestUrl(params)) == RequestUrl(params)
  {
    var url := RequestUrl(params);
    FixedPartsPlain();
    RequestUrlAvoids(params, '#');
    RequestUrlAvoids(params, '\t');
    RequestUrlAvoids(params, '\n');
    RequestUrlAvoids(params, '\r');
    RequestUrlEnds(params);
    Text.TrimEndNone(url);
    Text.TrimStartNone(url);
    Text.RemoveNone(url);
    Text.SplitAtFirstNone(url, '#');
  }

  /** A character that no fixed part, name or value holds is not in the request URL. */
  lemma RequestUrlAvoids(params: Obj<Param>, c: char)
    requires c !in BasePath && c !in ApiKey && c !in "?apiKey=&"
    requires forall i | 0 <= i < |params| :: c !in params[i].key && c !in Stringify(params[i].val)
    ensures c !in RequestUrl(params)
  {
    forall i | 0 <= i < |Pairs(params)|
      ensures c !in Pairs(params)[i]
    {
      assert Pairs(params)[i] == params[i].key + "=" + Stringify(params[i].val);
    }
    Text.JoinAvoids(Pairs(params), "&", c);
  }

  /** A request URL starts with "h" and ends in a character the URL parser keeps. */
  lemma RequestUrlEnds(params: Obj<Param>)
    requires |params| == 0 || Text.EndsKept(Stringify(params[|params| - 1].val))
    ensures |RequestUrl(params)| > 0 && RequestUrl(params)[0] == 'h' && Text.EndsKept(RequestUrl(params))
  {
    FixedPartsPlain();
    var head := BasePath + "?" + "apiKey=" + ApiKey;
    var tail := "&" + ParamString(params);
    assert RequestUrl(params) == BasePath + ("?" + "apiKey=" + ApiKey + tail);
    assert RequestUrl(params) == head + tail;
    if |params| == 0 {
      assert tail == "&";
    } else {
      ParamStringEnds(params);
      Text.EndsKeptAppend("&", ParamString(params));
    }
    Text.EndsKeptAppend(head, tail);
  }

  /** The parameter string ends where its last value ends, or with "=" when that value is empty. */
  lemma ParamStringEnds(params: Obj<Param>)
    requires |params| > 0 && Text.EndsKept(Stringify(params[|params| - 1].val))
    ensures |ParamString(params)| > 0 && Text.EndsKept(ParamString(params))
  {
    var last := params[|params| - 1];
    var v := Stringify(last.val);
    assert Pairs(params)[|params| - 1] == (last.key + "=") + v;
    if |v| > 0 {
      Text.EndsKeptAppend(last.key + "=", v);
    }
    Text.JoinEnds(Pairs(params), "&");
  }

  /** The fixed parts of every URL hold no "#", tab or newline. */
  lemma FixedPartsPlain()
    ensures '#' !in BasePath && '#' !in ApiKey
    ensures Text.NoTabOrNewline(BasePath) && Text.NoTabOrNewline(ApiKey)
    ensures BasePath[0] == 'h'
  {
    FixedPartsPrintable();
    Text.PrintablePlain(BasePath);
    Text.PrintablePlain(ApiKey);
  }

  lemma FixedPartsPrintable()
    ensures Text.Printable(BasePath) && Text.Printable(ApiKey)
  {
  }

  /** The URL of a title search: a fixed prefix for the type, then the text as it is. */
  lemma SearchUrlShape(t: ItemType, s: string)
    ensures SearchUrl(t, s) == SearchPrefix(t) + s
  {
    SearchParamString(t, s);
    SearchPieces(BasePath, "apiKey=", ApiKey, "type=", TypeName(t), "s=", s);
  }

  lemma SearchParamString(t: ItemType, s: string)
    ensures ParamString(FindByTypeParams(t, Singleton("s", Str(s)))) == ("type=" + TypeName(t)) + "&" + ("s=" + s)
  {
    SearchParams(t, s);
    var params := FindByTypeParams(t, Singleton("s", Str(s)));
    NamesWithEquals();
    var a, b := "type=" + TypeName(t), "s=" + s;
    assert Pairs(params) == [Pair(params[0]), Pair(params[1])];
    assert Pair(params[0]) == a;
    assert Pair(params[1]) == b;
    Text.JoinTwo(a, b, "&");
  }

  /** The parameter names of this program followed by "=". */
  lemma NamesWithEquals()
    ensures "type" + "=" == "type=" && "s" + "=" == "s=" && "page" + "=" == "page="
  {
  }

  lemma SearchPieces(base: string, n0: string, v0: string, n1: string, v1: string, n2: string, v2: string)
    ensures base + "?" + (n0 + v0 + "&" + ((n1 + v1) + "&" + (n2 + v2)))
      == (base + "?" + n0 + v0 + "&" + n1 + v1 + "&" + n2) + v2
  {
  }

  function SearchPrefix(t: ItemType): (p: string)
    ensures '#' !in p
  {
    FixedPartsPlain();
    BasePath + "?" + "apiKey=" + ApiKey + "&" + "type=" + TypeName(t) + "&" + "s="
  }

  /** The search prefix holds no tab or newline, starts with "h" and ends with "=". */
  lemma SearchPrefixPlain(t: ItemType)
    ensures Text.NoTabOrNewline(SearchPrefix(t))
    ensures |SearchPrefix(t)| > 0 && SearchPrefix(t)[0] == 'h' && SearchPrefix(t)[|SearchPrefix(t)| - 1] == '='
  {
    SearchPrefixNoTab(t);
    SearchPrefixEnds(BasePath + "?" + "apiKey=" + ApiKey + "&" + "type=" + TypeName(t) + "&");
    FixedPartsPlain();
    assert (BasePath + ("?" + "apiKey=" + ApiKey + "&" + "type=" + TypeName(t) + "&"))[0] == 'h';
  }

  lemma SearchPrefixNoTab(t: ItemType)
    ensures Text.NoTabOrNewline(SearchPrefix(t))
  {
    FixedPartsPlain();
    TypeNamePrintable(t);
    Text.PrintablePlain(TypeName(t));
    SearchPrefixAvoids(t, '\t');
    SearchPrefixAvoids(t, '\n');
    SearchPrefixAvoids(t, '\r');
  }

  lemma SearchPrefixEnds(head: string)
    ensures (head + "s=")[|head + "s="| - 1] == '='
  {
  }

  /** A character that no fixed part and no type name holds is not in the search prefix. */
  lemma SearchPrefixAvoids(t: ItemType, c: char)
    requires c !in BasePath && c !in ApiKey && c !in "?apiKey=&types" && c !in TypeName(t)
    ensures c !in SearchPrefix(t)
  {
  }

  lemma TypeNamePrintable(t: ItemType)
    ensures Text.Printable(TypeName(t))
  {
  }

  /**
   What `fetch` sends for a title search: the prefix, then the text with its
   trailing controls and spaces, its tabs and newlines and any fragment gone.
   */
  lemma SentSearch(t: ItemType, s: string)
    ensures SentUrl(SearchUrl(t, s))
      == SearchPrefix(t) + Text.SplitAtFirst(Text.RemoveTabsAndNewlines(Text.TrimEnd(s)), '#').0
  {
    SearchUrlShape(t, s);
    var p := SearchPrefix(t);
    SearchPrefixPlain(t);
    var x := Text.TrimEnd(s);
    Text.TrimEndAfter(p, s);
    assert (p + x)[0] == 'h';
    Text.TrimStartNone(p + x);
    Text.RemoveConcat(p, x);
    Text.RemoveNone(p);
    Text.SplitAtFirstAfter(p, Text.RemoveTabsAndNewlines(x), '#');
  }

  /**
   Values are not escaped, so a "#" in the search text starts a fragment
   that `fetch` keeps to itself: a search for "C#" asks the server for "C".
   */
  lemma FragmentCutsSearch(t: ItemType, s: string, rest: string)
    requires '#' !in s && Text.NoTabOrNewline(s)
    ensures SentUrl(SearchUrl(t, s + "#" + rest)) == SearchUrl(t, s)
  {
    SentSearch(t, s + "#" + rest);
    Text.CleanedBeforeHash(s, rest);
    SearchUrlShape(t, s);
  }

  /**
   Trailing spaces and controls of the search text never reach the server:
   the text counts them, the request does not.
   */
  lemma TrailingBlanksDropped(t: ItemType, s: string, pad: string)
    requires '#' !in s && Text.NoTabOrNewline(s) && Text.TrimEnd(s) == s
    requires forall i | 0 <= i < |pad| :: Text.IsControlOrSpace(pad[i])
    ensures SentUrl(SearchUrl(t, s + pad)) == SearchUrl(t, s)
  {
    SentSearch(t, s + pad);
    Text.TrimEndPad(s, pad);
    Text.RemoveNone(s);
    Text.SplitAtFirstNone(s, '#');
    SearchUrlShape(t, s);
  }

  /** A search for "ab " passes for three characters but asks the server for "ab". */
  lemma PaddedSearchSentTrimmed(t: ItemType)
    ensures |"ab "| == 3
    ensures SentUrl(SearchUrl(t, "ab ")) == SearchUrl(t, "ab")
  {
    assert "ab" + " " == "ab ";
    assert Text.TrimEnd("ab") == "ab";
    TrailingBlanksDropped(t, "ab", " ");
  }

  /**
   Values are not escaped: a search text holding "&" and "=" reaches the
   server as a parameter of its own.
   */
  lemma UnescapedValueInjectsParameter()
    ensures ParseQuery(ParamString(Singleton("s", Str("a&b=c")))) == [("s", "a"), ("b", "c")]
  {
    InjectedParamString();
    ParseTwoPairs("s", "a", "b", "c");
    assert "s" + "=" + "a" + "&" + "b" + "=" + "c" == "s=a&b=c";
  }

  lemma InjectedParamString()
    ensures ParamString(Singleton("s", Str("a&b=c"))) == "s=a&b=c"
  {
    var params := Singleton("s", Str("a&b=c"));
    assert Pair(params[0]) == "s=a&b=c";
    assert Pairs(params) == ["s=a&b=c"];
  }

  /** Two safe pairs joined by "&" read back as those two pairs. */
  lemma ParseTwoPairs(k1: string, v1: string, k2: string, v2: string)
    requires '&' !in k1 && '=' !in k1 && '&' !in v1
    requires '&' !in k2 && '=' !in k2 && '&' !in v2
    ensures ParseQuery(k1 + "=" + v1 + "&" + k2 + "=" + v2) == [(k1, v1), (k2, v2)]
  {
    var p1, p2 := k1 + "=" + v1, k2 + "=" + v2;
    assert p1 == k1 + ['='] + v1 && p2 == k2 + ['='] + v2;
    var parts := [p1, p2];
    assert Text.Join(parts, "&") == k1 + "=" + v1 + "&" + k2 + "=" + v2 by {
      assert parts[1..] == [p2];
    }
    Text.SplitJoin(parts, '&');
    Text.SplitAtFirstOf(k1, '=', v1);
    Text.SplitAtFirstOf(k2, '=', v2);
  }

  /**
   `{ type, ...params }`: "type" is the first key; the caller's keys follow
   in their own order, and a caller's own "type" overrides the value but
   keeps the first position.
   */
  function FindByTypeParams(t: ItemType, params: Obj<Param>): (r: Obj<Param>)
    ensures |r| > 0 && Keys(r)[0] == "type"
    ensures Keys(r) == ["type"] + Missing(Keys(params), ["type"])
    ensures "type" !in Keys(params) ==> r == [Entry("type", Str(TypeName(t)))] + params
    ensures Get(r, "type") == if "type" in Keys(params) then Get(params, "type") else Present(Str(TypeName(t)))
    ensures forall k | k != "type" :: Get(r, k) == Get(params, k)
  {
    var first := Entry("type", Str(TypeName(t)));
    Single(first);
    AssignSingle(first, params);
    if "type" !in Keys(params) then
      AssignPrepend(first, params);
      Assign([first], params)
    else
      Assign([first], params)
  }

  /** The URL fetched for one type of a title search. */
  function SearchUrl(t: ItemType, s: string): string
  {
    RequestUrl(FindByTypeParams(t, Singleton("s", Str(s))))
  }

  /** A title search asks for exactly its type and its text, in that order. */
  lemma SearchParams(t: ItemType, s: string)
    ensures FindByTypeParams(t, Singleton("s", Str(s))) == [Entry("type", Str(TypeName(t))), Entry("s", Str(s))]
  {
  }

  /** `then(([movie, series, episode]) => ({ movie, series, episode }))`. */
  function ZipByType<R>(responses: seq<R>): (r: Obj<R>)
    requires |responses| == |ItemTypes|
    ensures Keys(r) == ["movie", "series", "episode"]
    ensures forall i | 0 <= i < |ItemTypes| :: Get(r, TypeName(ItemTypes[i])) == Present(responses[i])
  {
    var episode := Singleton("episode", responses[2]);
    Cons(Entry("series", responses[1]), episode);
    var series: Obj<R> := [Entry("series", responses[1])] + episode;
    Cons(Entry("movie", responses[0]), series);
    var r: Obj<R> := [Entry("movie", responses[0])] + series;
    GetEntry(r, 0);
    GetEntry(r, 1);
    GetEntry(r, 2);
    r
  }

  /**
   `findAllByTitle(s)`: one lookup per entry of the type list, each with
   parameters `{ type, s }`, zipped by position into one object.
   */
  function FindAllByTitle<R>(fetch: string -> R, s: string): (r: Obj<R>)
    ensures Keys(r) == ["movie", "series", "episode"]
    ensures forall t: ItemType :: Get(r, TypeName(t)) == Present(fetch(SearchUrl(t, s)))
  {
    AllTypes(t => fetch(SearchUrl(t, s)))
  }

  /** `Promise.all(ItemTypes.map(lookup))` zipped by position: each type's own lookup under its name. */
  function AllTypes<R>(lookup: ItemType -> R): (r: Obj<R>)
    ensures Keys(r) == ["movie", "series", "episode"]
    ensures forall t: ItemType :: Get(r, TypeName(t)) == Present(lookup(t))
  {
    var responses := seq(|ItemTypes|, i requires 0 <= i < |ItemTypes| => lookup(ItemTypes[i]));
    var r := ZipByType(responses);
    EveryTypeZipped(responses, r, lookup);
    r
  }

  lemma EveryTypeZipped<R>(responses: seq<R>, r: Obj<R>, lookup: ItemType -> R)
    requires |responses| == |ItemTypes|
    requires forall i | 0 <= i < |ItemTypes| :: responses[i] == lookup(ItemTypes[i])
    requires forall i | 0 <= i < |ItemTypes| :: Get(r, TypeName(ItemTypes[i])) == Present(responses[i])
    ensures forall t: ItemType :: Get(r, TypeName(t)) == Present(lookup(t))
  {
    forall t: ItemType
      ensures Get(r, TypeName(t)) == Present(lookup(t))
    {
      var i := match t case Movie => 0 case Series => 1 case Episode => 2;
      assert ItemTypes[i] == t;
    }
  }
}

=== FILE: autocomplete.dfy ===
/**
 The `Autocomplete` component of src/autocomplete/autocomplete.js: the text
 typed, the debounced search, the spinner, the dropdown and its children,
 and the section components with their "load more" requests.

 The lookups the widget is configured with (`onSearch`, `onLoadMore`) are
 asynchronous: a call is recorded as pending, and its promise settling is an
 event of its own carrying whatever value the lookup produced, in any order.
 Section components are kept in a heap of every section ever created; the
 dropdown's children refer to it by index, so a component that a later
 search replaced can still be updated by its own pending "load more",
 without any visible effect.
 */
module Autocomplete {
  import opened JsValues
  import opened JsObject
  import opened Components
  import opened Debounce

  /** Texts shorter than this do not search. */
  const MinSearchLength: nat := 3

  /** The parts of the configuration the widget reads besides its callbacks. */
  datatype Config = Config(itemTemplate: Nullish<Item -> Row>, noResultsMessage: Nullish<string>)

  /** A child of the dropdown node: a section component (by heap index) or a no-results view. */
  datatype Child = SectionChild(index: nat) | NoResultsChild(message: string)

  /** A pending `onLoadMore(currentSearch, section)` issued by the section at heap index `section`. */
  datatype LoadCall = LoadCall(section: nat, value: string, name: string)

  datatype Widget = Widget(
    currentSearch: string,
    timer: Timer<string>,
    dropdownVisible: bool,
    spinnerVisible: bool,
    children: seq<Child>,
    sections: seq<Section>,
    searches: seq<string>,
    loads: seq<LoadCall>,
    selected: seq<string>)

  /** The widget as mounted: nothing typed, nothing pending, dropdown and spinner hidden. */
  const Initial: Widget := Widget("", Idle, false, false, [], [], [], [], [])

  /** Every heap index the widget holds refers to a section component. */
  ghost predicate Valid(w: Widget)
  {
    (forall c | c in w.children && c.SectionChild? :: c.index < |w.sections|)
    && (forall l | l in w.loads :: l.section < |w.sections|)
  }

  /** The keyups of a burst of typing, each before the debounce delay ran out. */
  function TypeAll(w: Widget, values: seq<string>): (r: Widget)
    requires Valid(w)
    ensures Valid(r)
    ensures |values| == 0 ==> r == w
    ensures |values| > 0 ==>
      r == w.(currentSearch := values[|values| - 1], timer := Armed(values[|values| - 1]))
    decreases |values|
  {
    if |values| == 0 then w else TypeAll(Keyup(w, values[0]), values[1..])
  }

  /**
   A burst of typing followed by the delay running out searches at most
   once, for the last text typed, and only when it is long enough; the
   widget's timer follows the debounce model throughout.
   */
  lemma TypingBurst(w: Widget, values: seq<string>)
    requires Valid(w) && |values| > 0
    ensures TypeAll(w, values).timer == Run(w.timer, Burst(values)).0
    ensures
      var last := values[|values| - 1];
      var r := TimerElapses(TypeAll(w, values));
      r.currentSearch == last
      && (|last| >= MinSearchLength ==> r.searches == w.searches + [last] && r.spinnerVisible)
      && (|last| < MinSearchLength ==> r.searches == w.searches && !r.dropdownVisible)
  {
    BurstArms(w.timer, values);
  }

  /** `handleInputKeyup`: the text is kept as typed and handed to the debounced change handler. */
  function Keyup(w: Widget, value: string): (r: Widget)
    requires Valid(w)
    ensures Valid(r)
    ensures r.currentSearch == value && r.timer == Armed(value)
    ensures r == w.(currentSearch := value, timer := Armed(value))
  {
    w.(currentSearch := value, timer := Invoke(w.timer, value))
  }

  /**
   `handleInputChange(value)`: a text shorter than three characters hides
   the dropdown and nothing else; a longer one shows the spinner and calls
   `onSearch(value)`.
   */
  function InputChange(w: Widget, value: string): (r: Widget)
    requires Valid(w)
    ensures Valid(r)
    ensures |value| < MinSearchLength ==> r == w.(dropdownVisible := false)
    ensures |value| >= MinSearchLength ==> r == w.(spinnerVisible := true, searches := w.searches + [value])
  {
    if |value| < MinSearchLength then w.(dropdownVisible := false)
    else w.(spinnerVisible := true, searches := w.searches + [value])
  }

  /** The debounce delay running out: the pending text, if any, reaches `handleInputChange`. */
  function TimerElapses(w: Widget): (r: Widget)
    requires Valid(w)
    ensures Valid(r)
    ensures r.timer == Idle
    ensures w.timer.Idle? ==> r == w
    ensures w.timer.Armed? ==> r == InputChange(w.(timer := Idle), w.timer.args)
  {
    match Fire(w.timer)
    case (idle, fired) =>
      if |fired| == 0 then w
      else InputChange(w.(timer := idle), fired[0])
  }

  /** `handleClickOutside`: a click outside the widget hides the dropdown. */
  function ClickOutside(w: Widget): (r: Widget)
    requires Valid(w)
    ensures Valid(r)
    ensures !r.dropdownVisible
    ensures r.(dropdownVisible := w.dropdownVisible) == w
  {
    w.(dropdownVisible := false)
  }

  /** `Object.keys(results).filter(isSectionFilled)`: the names whose list is not empty. */
  function FilledSections(results: seq<Entry<seq<Item>>>): seq<string>
  {
    if |results| == 0 then []
    else (if |results[0].val| > 0 then [results[0].key] else []) + FilledSections(results[1..])
  }

  /** The filled sections are exactly the names whose list has items. */
  lemma {:induction false} FilledSectionsMembers(results: Obj<seq<Item>>)
    ensures forall n :: n in FilledSections(results) <==> Get(results, n).Present? && |Get(results, n).value| > 0
    ensures forall n | n in FilledSections(results) :: n in Keys(results)
  {
    if |results| > 0 {
      var tail: Obj<seq<Item>> := results[1..];
      FilledSectionsMembers(tail);
      assert FilledSections(results) == (if |results[0].val| > 0 then [results[0].key] else []) + FilledSections(tail);
      forall n
        ensures n in FilledSections(results) <==> Get(results, n).Present? && |Get(results, n).value| > 0
        ensures n in FilledSections(results) ==> n in Keys(results)
      {
        GetMissing(results, n);
        GetMissing(tail, n);
      }
    }
  }

  /** A key after the first sits one place further in the whole object than in its tail. */
  lemma PositionInTail<V>(o: Obj<V>, n: string)
    requires |o| > 0 && n in Keys(o[1..])
    ensures n != o[0].key && n in Keys(o)
    ensures Position(o, n) == 1 + Position(o[1..], n)
  {
  }

  /** The filled sections come in the order of the results' keys, each once. */
  lemma {:induction false} FilledSectionsOrdered(results: Obj<seq<Item>>)
    ensures forall i, j | 0 <= i < j < |FilledSections(results)| ::
      FilledSections(results)[i] in Keys(results) && FilledSections(results)[j] in Keys(results) &&
      Position(results, FilledSections(results)[i]) < Position(results, FilledSections(results)[j])
  {
    if |results| > 0 {
      var tail: Obj<seq<Item>> := results[1..];
      FilledSectionsOrdered(tail);
      FilledSectionsMembers(tail);
      var k0 := results[0].key;
      var names, names' := FilledSections(results), FilledSections(tail);
      assert names == (if |results[0].val| > 0 then [k0] else []) + names';
      forall i, j | 0 <= i < j < |names|
        ensures names[i] in Keys(results) && names[j] in Keys(results)
        ensures Position(results, names[i]) < Position(results, names[j])
      {
        var d := if |results[0].val| > 0 then 1 else 0;
        assert names[j] == names'[j - d];
        PositionInTail(results, names[j]);
        if i < d {
          assert names[i] == k0;
        } else {
          assert names[i] == names'[i - d];
          PositionInTail(results, names[i]);
        }
      }
    }
  }

  /** `filter(isSectionFilled).map(createSection)`: one new component per name, drawn with the configured template. */
  function CreateSections(cfg: Config, results: Obj<seq<Item>>, names: seq<string>): (created: seq<Section>)
    requires forall n | n in names :: Get(results, n).Present?
    ensures |created| == |names|
    ensures forall i | 0 <= i < |names| ::
      created[i] == CreateSection(names[i], Get(results, names[i]).value, cfg.itemTemplate)
  {
    seq(|names|, i requires 0 <= i < |names| =>
      assert names[i] in names; CreateSection(names[i], Get(results, names[i]).value, cfg.itemTemplate))
  }

  /** `showResults(sections)`: the new components replace the dropdown's children, and it is shown. */
  function ShowResults(w: Widget, created: seq<Section>): (r: Widget)
    requires Valid(w)
    ensures Valid(r)
    ensures r.sections == w.sections + created && r.dropdownVisible
    ensures |r.children| == |created|
    ensures forall i | 0 <= i < |created| :: r.children[i] == SectionChild(|w.sections| + i)
    ensures r.(children := w.children, sections := w.sections, dropdownVisible := w.dropdownVisible) == w
  {
    var n := |w.sections|;
    w.(children := seq(|created|, i requires 0 <= i < |created| => SectionChild(n + i)),
       sections := w.sections + created,
       dropdownVisible := true)
  }

  /**
   `showEmptyResults()`: a no-results view built from the configured message
   replaces the dropdown's children, and it is shown; when building the view
   throws, nothing changes.
   */
  function ShowEmptyResults(w: Widget, cfg: Config): (r: Widget)
    requires Valid(w)
    ensures Valid(r)
    ensures NoResultsText(ConstructorData(cfg.noResultsMessage)).ThrowsTypeError? ==> r == w
    ensures NoResultsText(ConstructorData(cfg.noResultsMessage)).Normal? ==>
      r == w.(children := [NoResultsChild(NoResultsText(ConstructorData(cfg.noResultsMessage)).value)], dropdownVisible := true)
    ensures cfg.noResultsMessage != Null ==> r == w.(children := [NoResultsChild(DefaultMessage)], dropdownVisible := true)
  {
    ConfiguredMessageNeverShown(cfg.noResultsMessage);
    match NoResultsText(ConstructorData(cfg.noResultsMessage))
    case Normal(m) => w.(children := [NoResultsChild(m)], dropdownVisible := true)
    case ThrowsTypeError => w
  }

  /**
   `showEmptyResults()` as evidently intended, building the view from
   `{ message: noResultsMessage }`: a non-empty configured message is shown,
   the default one otherwise, and building the view never throws.
   */
  function ShowConfiguredEmptyResults(w: Widget, cfg: Config): (r: Widget)
    requires Valid(w)
    ensures Valid(r)
    ensures cfg.noResultsMessage.Present? && cfg.noResultsMessage.value != "" ==>
      r == w.(children := [NoResultsChild(cfg.noResultsMessage.value)], dropdownVisible := true)
    ensures !(cfg.noResultsMessage.Present? && cfg.noResultsMessage.value != "") ==>
      r == w.(children := [NoResultsChild(DefaultMessage)], dropdownVisible := true)
  {
    NoResultsTextOfObject(cfg.noResultsMessage);
    var shown := NoResultsText(ObjectData(cfg.noResultsMessage));
    w.(children := [NoResultsChild(shown.value)], dropdownVisible := true)
  }

  /** The no-results message `src/main.js` configures. */
  const ProgramNoResultsMessage: string := "Looking for movies, series or episodes? Try entering a different name"

  /**
   With the program's own configuration, an empty search shows the default
   message instead of the configured one; built from `{ message }`, the view
   would show the configured one.
   */
  lemma ConfiguredMessageLost(w: Widget, template: Nullish<Item -> Row>)
    requires Valid(w)
    ensures var cfg := Config(template, Present(ProgramNoResultsMessage));
      ShowEmptyResults(w, cfg).children == [NoResultsChild(DefaultMessage)]
      && ShowConfiguredEmptyResults(w, cfg).children == [NoResultsChild(ProgramNoResultsMessage)]
      && ProgramNoResultsMessage != DefaultMessage
  {
  }

  /**
   `handleSearchFinish(results)`: when some list has items, the dropdown
   opens on one section per such list, in key order; otherwise it opens on
   the no-results view, which shows the default message whatever message is
   configured, and a `null` message throws and leaves the widget as it was.
   Only the children, the section heap and the dropdown's visibility change.
   */
  function SearchFinish(w: Widget, cfg: Config, results: Obj<seq<Item>>): (r: Widget)
    requires Valid(w)
    ensures Valid(r)
    ensures forall n | n in FilledSections(results) :: Get(results, n).Present?
    ensures var names := FilledSections(results);
      |names| > 0 ==>
        View(r) == Open(seq(|names|, i requires 0 <= i < |names| =>
          SectionShown(CreateSection(names[i], Get(results, names[i]).value, cfg.itemTemplate))))
    ensures |FilledSections(results)| == 0 && cfg.noResultsMessage != Null ==>
      View(r) == Open([NoResultsShown(DefaultMessage)])
    ensures |FilledSections(results)| == 0 && cfg.noResultsMessage == Null ==> r == w
    ensures r.(children := w.children, sections := w.sections, dropdownVisible := w.dropdownVisible) == w
  {
    var names := FilledSections(results);
    FilledSectionsMembers(results);
    if |names| > 0 then
      SectionsShown(w, cfg, results, names);
      ShowResults(w, CreateSections(cfg, results, names))
    else
      ConfiguredMessageNeverShown(cfg.noResultsMessage);
      ShowEmptyResults(w, cfg)
  }

  /** Shown sections display one new component per name, each with its own list. */
  lemma SectionsShown(w: Widget, cfg: Config, results: Obj<seq<Item>>, names: seq<string>)
    requires Valid(w)
    requires forall n | n in names :: Get(results, n).Present?
    ensures View(ShowResults(w, CreateSections(cfg, results, names)))
      == Open(seq(|names|, i requires 0 <= i < |names| =>
           SectionShown(CreateSection(names[i], Get(results, names[i]).value, cfg.itemTemplate))))
  {
    var created := CreateSections(cfg, results, names);
    ShownResults(w, created);
  }

  /** The search with pending index `k` settles with `results`: the spinner is hidden, then the results are shown. */
  function SearchSettles(w: Widget, cfg: Config, k: nat, results: Obj<seq<Item>>): (r: Widget)
    requires Valid(w) && k < |w.searches|
    ensures Valid(r)
    ensures !r.spinnerVisible
    ensures r.searches == w.searches[..k] + w.searches[k + 1..]
    ensures r == SearchFinish(w.(spinnerVisible := false, searches := w.searches[..k] + w.searches[k + 1..]), cfg, results)
  {
    SearchFinish(w.(spinnerVisible := false, searches := w.searches[..k] + w.searches[k + 1..]), cfg, results)
  }

  /**
   A click inside the section component that child `c` of the dropdown shows:
   the "load more" button disables itself and asks for more items of its
   section with the text currently in the input; a row hands its id to
   `onSelectItem`; anything else does nothing.
   */
  function SectionClick(w: Widget, c: nat, target: Target): (r: Widget)
    requires Valid(w) && w.dropdownVisible
    requires c < |w.children| && w.children[c].SectionChild?
    requires ValidTarget(w.sections[w.children[c].index], target)
    ensures Valid(r)
    ensures r.children == w.children && r.dropdownVisible == w.dropdownVisible && |r.sections| == |w.sections|
    ensures
      var idx := w.children[c].index;
      var s := w.sections[idx];
      match Dispatch(s, target)
      case LoadMoreIntent =>
        r == w.(sections := w.sections[idx := SetLoadingState(s, true)],
                loads := w.loads + [LoadCall(idx, w.currentSearch, s.name)])
      case SelectIntent(id) =>
        r == w.(selected := w.selected + [id])
      case NoIntent => r == w
  {
    var idx := w.children[c].index;
    var s := w.sections[idx];
    match Dispatch(s, target)
    case LoadMoreIntent =>
      w.(sections := w.sections[idx := SetLoadingState(s, true)], loads := w.loads + [LoadCall(idx, w.currentSearch, s.name)])
    case SelectIntent(id) => w.(selected := w.selected + [id])
    case NoIntent => w
  }

  /**
   The pending "load more" with index `k` settles with `items`: its section
   component re-enables its button and appends the items with the default
   row template, whether or not the component is still shown.
   */
  function LoadSettles(w: Widget, k: nat, items: seq<Item>): (r: Widget)
    requires Valid(w) && k < |w.loads|
    ensures Valid(r)
    ensures r.children == w.children && r.dropdownVisible == w.dropdownVisible
    ensures r.loads == w.loads[..k] + w.loads[k + 1..]
    ensures
      var idx := w.loads[k].section;
      |r.sections| == |w.sections|
      && r.sections[idx] == AddItems(SetLoadingState(w.sections[idx], false), items)
      && forall j | 0 <= j < |w.sections| && j != idx :: r.sections[j] == w.sections[j]
    ensures r.(sections := w.sections, loads := w.loads) == w
  {
    var idx := w.loads[k].section;
    assert w.loads[k] in w.loads;
    var rest := w.loads[..k] + w.loads[k + 1..];
    assert forall l | l in rest :: l in w.loads;
    w.(sections := w.sections[idx := AddItems(SetLoadingState(w.sections[idx], false), items)], loads := rest)
  }

  /** What a child of the dropdown shows. */
  datatype Shown = SectionShown(section: Section) | NoResultsShown(message: string)

  /** What the user sees of the dropdown. */
  datatype Dropdown = Hidden | Open(content: seq<Shown>)

  function View(w: Widget): (d: Dropdown)
    requires Valid(w)
    ensures w.dropdownVisible <==> d.Open?
    ensures d.Open? ==> |d.content| == |w.children|
  {
    if !w.dropdownVisible then Hidden
    else
      Open(seq(|w.children|, i requires 0 <= i < |w.children| =>
        match w.children[i]
        case SectionChild(idx) => assert w.children[i] in w.children; SectionShown(w.sections[idx])
        case NoResultsChild(m) => NoResultsShown(m)))
  }

  /**
   With a message configured, the no-results view is what a settled search
   shows exactly when every list in the results is empty.
   */
  lemma NoResultsIffAllEmpty(w: Widget, cfg: Config, results: Obj<seq<Item>>)
    requires Valid(w) && cfg.noResultsMessage != Null
    ensures (forall n :: Get(results, n).Present? ==> |Get(results, n).value| == 0)
      ==> SearchFinish(w, cfg, results).children == [NoResultsChild(DefaultMessage)]
    ensures SearchFinish(w, cfg, results).children == [NoResultsChild(DefaultMessage)]
      ==> forall n :: Get(results, n).Present? ==> |Get(results, n).value| == 0
  {
    FilledSectionsMembers(results);
    var names := FilledSections(results);
    if |names| > 0 {
      assert names[0] in names;
      assert Get(results, names[0]).Present? && |Get(results, names[0]).value| > 0;
      assert SearchFinish(w, cfg, results).children[0] == SectionChild(|w.sections|);
      assert SearchFinish(w, cfg, results).children != [NoResultsChild(DefaultMessage)];
      assert !(forall n :: Get(results, n).Present? ==> |Get(results, n).value| == 0);
    } else {
      assert SearchFinish(w, cfg, results) == ShowEmptyResults(w, cfg);
    }
  }

  /**
   The last search to settle decides what the dropdown shows, whatever the
   widget showed before and whichever search it was: results are never
   checked against the text they were asked for.
   */
  lemma LastSettledWins(w1: Widget, w2: Widget, cfg: Config, k1: nat, k2: nat, results: Obj<seq<Item>>)
    requires Valid(w1) && k1 < |w1.searches|
    requires Valid(w2) && k2 < |w2.searches|
    requires |FilledSections(results)| > 0 || cfg.noResultsMessage != Null
    ensures View(SearchSettles(w1, cfg, k1, results)) == View(SearchSettles(w2, cfg, k2, results))
  {
    var names := FilledSections(results);
    var v1, v2 := View(SearchSettles(w1, cfg, k1, results)), View(SearchSettles(w2, cfg, k2, results));
    if |names| > 0 {
      FilledSectionsMembers(results);
      var created := CreateSections(cfg, results, names);
      ShownResults(w1.(spinnerVisible := false, searches := w1.searches[..k1] + w1.searches[k1 + 1..]), created);
      ShownResults(w2.(spinnerVisible := false, searches := w2.searches[..k2] + w2.searches[k2 + 1..]), created);
      assert v1.content == v2.content;
    }
  }

  /**
   The case the last settled search does not decide: with a `null` message
   and every list empty, building the no-results view throws and the
   dropdown goes on showing what it showed before.
   */
  lemma NullMessageKeepsView(w: Widget, cfg: Config, k: nat, results: Obj<seq<Item>>)
    requires Valid(w) && k < |w.searches|
    requires |FilledSections(results)| == 0 && cfg.noResultsMessage == Null
    ensures View(SearchSettles(w, cfg, k, results)) == View(w)
  {
  }

  /** Shown results display exactly the new components, in order. */
  lemma ShownResults(w: Widget, created: seq<Section>)
    requires Valid(w)
    ensures View(ShowResults(w, created)).Open?
    ensures |View(ShowResults(w, created)).content| == |created|
    ensures forall i | 0 <= i < |created| :: View(ShowResults(w, created)).content[i] == SectionShown(created[i])
  {
    var r := ShowResults(w, created);
    forall i | 0 <= i < |created|
      ensures View(r).content[i] == SectionShown(created[i])
    {
      assert r.children[i] == SectionChild(|w.sections| + i);
      assert r.sections[|w.sections| + i] == created[i];
    }
  }

  /**
   Results arrive out of order: when the search for "abcd" settles before
   the earlier one for "abc", the dropdown ends up showing the results for
   "abc" although "abcd" is in the input.
   */
  lemma StaleResultsShown(w: Widget, cfg: Config, older: Obj<seq<Item>>, newer: Obj<seq<Item>>)
    requires Valid(w) && w.searches == [] && w.currentSearch == "abcd"
    requires |FilledSections(older)| > 0
    ensures
      var issued := InputChange(InputChange(w, "abc"), "abcd");
      issued.searches == ["abc", "abcd"]
      && var first := SearchSettles(issued, cfg, 1, newer);
      first.searches == ["abc"]
      && var last := SearchSettles(first, cfg, 0, older);
      last.currentSearch == "abcd"
      && View(last) == View(SearchSettles(w.(searches := ["abc"]), cfg, 0, older))
  {
    var issued := InputChange(InputChange(w, "abc"), "abcd");
    var first := SearchSettles(issued, cfg, 1, newer);
    assert issued.searches[..1] + issued.searches[2..] == ["abc"];
    LastSettledWins(first, w.(searches := ["abc"]), cfg, 0, 0, older);
  }

  /**
   Typing a text too short to search hides the dropdown, but a search still
   pending from before shows it again when it settles.
   */
  lemma ShortTextHidesUntilSettle(w: Widget, cfg: Config, results: Obj<seq<Item>>)
    requires Valid(w) && |w.searches| > 0
    requires |FilledSections(results)| > 0
    ensures !InputChange(w, "ab").dropdownVisible
    ensures SearchSettles(InputChange(w, "ab"), cfg, 0, results).dropdownVisible
  {
  }

  /**
   "Load more" asks with the text in the input, not with the text of the
   results on display: typing "ab" and clicking the button before the delay
   runs out sends "ab", though the results shown were found for other text
   and "ab" would not even start a search.
   */
  lemma LoadMoreUsesTypedText(w: Widget, c: nat)
    requires Valid(w) && w.dropdownVisible && c < |w.children| && w.children[c].SectionChild?
    requires !w.sections[w.children[c].index].button.disabled
    ensures
      var typed := Keyup(w, "ab");
      typed.dropdownVisible && typed.sections == w.sections && typed.children == w.children
      && var clicked := SectionClick(typed, c, ButtonTarget);
      clicked.loads == w.loads + [LoadCall(w.children[c].index, "ab", w.sections[w.children[c].index].name)]
  {
  }

  /**
   A "load more" whose section a later search replaced settles without any
   visible effect.
   */
  lemma DetachedLoadInvisible(w: Widget, k: nat, items: seq<Item>)
    requires Valid(w) && k < |w.loads|
    requires SectionChild(w.loads[k].section) !in w.children
    ensures View(LoadSettles(w, k, items)) == View(w)
  {
    var r := LoadSettles(w, k, items);
    if w.dropdownVisible {
      forall i | 0 <= i < |w.children| && w.children[i].SectionChild?
        ensures r.sections[w.children[i].index] == w.sections[w.children[i].index]
      {
        assert w.children[i] in w.children;
      }
    }
  }

  /**
   A "load more" whose section is on display shows the new items after the
   old ones, with the default template even when a custom one drew the rest,
   and a usable button again.
   */
  lemma ShownLoadAppends(w: Widget, k: nat, items: seq<Item>, c: nat)
    requires Valid(w) && k < |w.loads| && w.dropdownVisible
    requires c < |w.children| && w.children[c] == SectionChild(w.loads[k].section)
    ensures
      var before := w.sections[w.loads[k].section];
      var d := View(LoadSettles(w, k, items));
      d.Open? && d.content[c].SectionShown?
      && d.content[c].section.button == Button(false, LoadMoreLabel)
      && d.content[c].section.rows == before.rows + seq(|items|, i requires 0 <= i < |items| => ItemRow(items[i]))
  {
    var before := w.sections[w.loads[k].section];
    var after := AddItems(SetLoadingState(before, false), items);
    assert after.rows == before.rows + seq(|items|, i requires 0 <= i < |items| => ItemRow(items[i]));
  }

  /** The heap indices of the sections with a "load more" pending. */
  function LoadingSections(loads: seq<LoadCall>): set<nat>
  {
    set l | l in loads :: l.section
  }

  /**
   The "load more" bookkeeping the click listener and the settling promise
   keep between them: a section's button is disabled exactly while a "load
   more" of that section is pending, and then reads "Loading...", and no
   section has two pending at once.
   */
  ghost predicate LoadsTracked(w: Widget)
  {
    (forall i | 0 <= i < |w.sections| :: w.sections[i].button.disabled <==> i in LoadingSections(w.loads))
    && (forall i | 0 <= i < |w.sections| && w.sections[i].button.disabled ::
          w.sections[i].button.caption == LoadingLabel)
    && (forall a, b | 0 <= a < b < |w.loads| :: w.loads[a].section != w.loads[b].section)
  }

  /** What can happen to the widget: the user's input, the delay running out, and promises settling. */
  datatype WidgetEvent =
    | KeyupEvent(value: string)
    | DelayElapsed
    | ClickedOutside
    | SearchSettled(search: nat, results: Obj<seq<Item>>)
    | SectionClicked(child: nat, target: Target)
    | LoadSettled(load: nat, items: seq<Item>)

  /**
   Whether the event can happen: a search or load settles only while
   pending, and only a section on the shown dropdown can be clicked.
   */
  predicate CanHappen(w: Widget, e: WidgetEvent)
  {
    match e
    case SearchSettled(k, _) => k < |w.searches|
    case SectionClicked(c, target) =>
      w.dropdownVisible && c < |w.children| && w.children[c].SectionChild?
      && w.children[c].index < |w.sections| && ValidTarget(w.sections[w.children[c].index], target)
    case LoadSettled(k, _) => k < |w.loads|
    case _ => true
  }

  /** The widget after an event. */
  function Step(w: Widget, cfg: Config, e: WidgetEvent): (r: Widget)
    requires Valid(w) && CanHappen(w, e)
    ensures Valid(r)
  {
    match e
    case KeyupEvent(value) => Keyup(w, value)
    case DelayElapsed => TimerElapses(w)
    case ClickedOutside => ClickOutside(w)
    case SearchSettled(k, results) => SearchSettles(w, cfg, k, results)
    case SectionClicked(c, target) => SectionClick(w, c, target)
    case LoadSettled(k, items) => LoadSettles(w, k, items)
  }

  lemma InitialTracked()
    ensures Valid(Initial)
    ensures LoadsTracked(Initial)
  {
    assert LoadingSections(Initial.loads) == {};
  }

  /** Every event keeps the "load more" bookkeeping. */
  lemma StepKeepsTracked(w: Widget, cfg: Config, e: WidgetEvent)
    requires Valid(w) && LoadsTracked(w) && CanHappen(w, e)
    ensures LoadsTracked(Step(w, cfg, e))
  {
    match e
    case KeyupEvent(value) =>
    case DelayElapsed =>
    case ClickedOutside =>
    case SearchSettled(k, results) => SearchSettlesTracked(w, cfg, k, results);
    case SectionClicked(c, target) => SectionClickTracked(w, c, target);
    case LoadSettled(k, items) => LoadSettlesTracked(w, k, items);
  }

  lemma SearchSettlesTracked(w: Widget, cfg: Config, k: nat, results: Obj<seq<Item>>)
    requires Valid(w) && LoadsTracked(w) && k < |w.searches|
    ensures LoadsTracked(SearchSettles(w, cfg, k, results))
  {
    var r := SearchSettles(w, cfg, k, results);
    var names := FilledSections(results);
    if |names| > 0 {
      FilledSectionsMembers(results);
      var created := CreateSections(cfg, results, names);
      assert r.sections == w.sections + created && r.loads == w.loads;
      assert forall l | l in w.loads :: l.section < |w.sections|;
      forall i | |w.sections| <= i < |r.sections|
        ensures !r.sections[i].button.disabled && i !in LoadingSections(r.loads)
      {
        assert r.sections[i] == created[i - |w.sections|];
      }
    } else {
      assert r.sections == w.sections && r.loads == w.loads;
    }
  }

  lemma SectionClickTracked(w: Widget, c: nat, target: Target)
    requires Valid(w) && LoadsTracked(w) && w.dropdownVisible
    requires c < |w.children| && w.children[c].SectionChild?
    requires w.children[c].index < |w.sections| && ValidTarget(w.sections[w.children[c].index], target)
    ensures LoadsTracked(SectionClick(w, c, target))
  {
    var idx := w.children[c].index;
    var s := w.sections[idx];
    if Dispatch(s, target) == LoadMoreIntent {
      var r := SectionClick(w, c, target);
      var call := LoadCall(idx, w.currentSearch, s.name);
      assert r.loads == w.loads + [call];
      assert idx !in LoadingSections(w.loads);
      assert LoadingSections(r.loads) == LoadingSections(w.loads) + {idx};
      forall a, b | 0 <= a < b < |r.loads|
        ensures r.loads[a].section != r.loads[b].section
      {
        if b == |w.loads| {
          assert w.loads[a] in w.loads;
        }
      }
    }
  }

  lemma LoadSettlesTracked(w: Widget, k: nat, items: seq<Item>)
    requires Valid(w) && LoadsTracked(w) && k < |w.loads|
    ensures LoadsTracked(LoadSettles(w, k, items))
  {
    var r := LoadSettles(w, k, items);
    RemoveLoad(w.loads, k);
    assert r.loads == w.loads[..k] + w.loads[k + 1..];
  }

  /** Removing the one pending load of a section leaves the others, each still alone for its section. */
  lemma RemoveLoad(loads: seq<LoadCall>, k: nat)
    requires k < |loads|
    requires forall a, b | 0 <= a < b < |loads| :: loads[a].section != loads[b].section
    ensures var rest := loads[..k] + loads[k + 1..];
      LoadingSections(rest) == LoadingSections(loads) - {loads[k].section}
      && forall a, b | 0 <= a < b < |rest| :: rest[a].section != rest[b].section
  {
    var rest := loads[..k] + loads[k + 1..];
    var idx := loads[k].section;
    assert forall a | 0 <= a < |rest| :: rest[a] == loads[if a < k then a else a + 1];
    forall i
      ensures i in LoadingSections(rest) <==> i in LoadingSections(loads) && i != idx
    {
      if i in LoadingSections(loads) && i != idx {
        var j :| 0 <= j < |loads| && loads[j].section == i;
        assert rest[if j < k then j else j - 1] == loads[j];
      }
      if i in LoadingSections(rest) {
        var j :| 0 <= j < |rest| && rest[j].section == i;
        assert rest[j] in loads;
        assert i != idx;
      }
    }
  }

  /**
   While a "load more" of a section is pending, a click on its button asks
   for nothing more: there is never a second load of one section in flight.
   */
  lemma NoSecondLoad(w: Widget, c: nat)
    requires Valid(w) && LoadsTracked(w) && c < |w.children| && w.children[c].SectionChild?
    requires w.children[c].index in LoadingSections(w.loads)
    ensures w.children[c].index < |w.sections|
    ensures Dispatch(w.sections[w.children[c].index], ButtonTarget) == NoIntent
    ensures w.sections[w.children[c].index].button.caption == LoadingLabel
  {
    assert w.children[c] in w.children;
  }
}

=== FILE: components.dfy ===
/**
 The widget's view components (src/autocomplete/autocomplete.js): item rows,
 a result section with its "load more" button and click dispatch, and the
 no-results view. Only the data each element carries is kept, not its markup.
 */
module Components {
  import opened JsValues

  /** An item as the widget receives it: `{ id, img, title }`. */
  datatype Item = Item(id: string, img: Nullish<string>, title: string)

  /** What a rendered list row carries: its `data-id`, its image source and its caption. */
  datatype Row = Row(id: string, image: string, title: string)

  const Placeholder: string := "http://via.placeholder.com/30x40"

  /** `getItemTemplate`: the default row of an item. */
  function ItemRow(item: Item): Row
  {
    Row(item.id, Coalesce(item.img, Placeholder), item.title)
  }

  /**
   A default row keeps the item's id and title, shows the item's own image
   whenever there is one (an empty string included) and the placeholder
   exactly when the image is `null` or `undefined`.
   */
  lemma ItemRowShape(item: Item)
    ensures ItemRow(item).id == item.id && ItemRow(item).title == item.title
    ensures item.img.Present? ==> ItemRow(item).image == item.img.value
    ensures !item.img.Present? ==> ItemRow(item).image == Placeholder
    ensures item.img == Present("") ==> ItemRow(item).image == ""
  {
  }

  /** `getItemsTemplate(items, itemTemplate)`: a caller's template, else the default one. */
  function ItemsRows(items: seq<Item>, template: Nullish<Item -> Row>): (rows: seq<Row>)
    ensures |rows| == |items|
  {
    var render := if template.Present? then template.value else ItemRow;
    seq(|items|, i requires 0 <= i < |items| => render(items[i]))
  }

  const LoadMoreLabel: string := "Load more"
  const LoadingLabel: string := "Loading..."

  datatype Button = Button(disabled: bool, caption: string)

  /** A `SectionComponent`: its type name, its list rows and its "load more" button. */
  datatype Section = Section(name: string, rows: seq<Row>, button: Button)

  /** `new SectionComponent({ items, section, itemTemplate })`. */
  function CreateSection(name: string, items: seq<Item>, template: Nullish<Item -> Row>): (s: Section)
    ensures s.name == name && s.button == Button(false, LoadMoreLabel)
    ensures |s.rows| == |items|
    ensures template.Present? ==> forall i | 0 <= i < |items| :: s.rows[i] == template.value(items[i])
    ensures !template.Present? ==> forall i | 0 <= i < |items| :: s.rows[i] == ItemRow(items[i])
  {
    Section(name, ItemsRows(items, template), Button(false, LoadMoreLabel))
  }

  /** `setLoadingState(isLoading)`: only the button changes. */
  function SetLoadingState(s: Section, isLoading: bool): (r: Section)
    ensures r.name == s.name && r.rows == s.rows
    ensures r.button.disabled == isLoading
    ensures r.button.caption == if isLoading then LoadingLabel else LoadMoreLabel
  {
    if isLoading then s.(button := Button(true, LoadingLabel))
    else s.(button := Button(false, LoadMoreLabel))
  }

  /** `addItems(items)`: rows appended after the existing ones, always with the default template. */
  function AddItems(s: Section, items: seq<Item>): (r: Section)
    ensures r.name == s.name && r.button == s.button
    ensures |r.rows| == |s.rows| + |items|
    ensures r.rows[..|s.rows|] == s.rows
    ensures forall i | 0 <= i < |items| :: r.rows[|s.rows| + i] == ItemRow(items[i])
  {
    var added := ItemsRows(items, Undefined);
    assert (s.rows + added)[..|s.rows|] == s.rows;
    s.(rows := s.rows + added)
  }

  /** What a click inside a section lands on. */
  datatype Target =
    | ButtonTarget            // the "load more" button
    | RowTarget(row: nat)     // a list row (`LI`)
    | RowImageTarget(row: nat) // the image inside a row (`IMG`)
    | OtherTarget             // the header, the list itself, ...

  predicate ValidTarget(s: Section, target: Target)
  {
    match target
    case RowTarget(i) => i < |s.rows|
    case RowImageTarget(i) => i < |s.rows|
    case _ => true
  }

  /** What the section's click listener does. */
  datatype Intent = LoadMoreIntent | SelectIntent(id: string) | NoIntent

  /**
   The click listener: a click on the button asks for more items, a click on
   a row selects that row's id, anything else (the row's image included,
   whose target is the `IMG` element) does nothing. A disabled button
   receives no click at all.
   */
  function Dispatch(s: Section, target: Target): (intent: Intent)
    requires ValidTarget(s, target)
    ensures intent == LoadMoreIntent <==> target == ButtonTarget && !s.button.disabled
    ensures intent.SelectIntent? <==> target.RowTarget?
    ensures target.RowTarget? ==> intent == SelectIntent(s.rows[target.row].id)
  {
    match target
    case ButtonTarget => if s.button.disabled then NoIntent else LoadMoreIntent
    case RowTarget(i) => SelectIntent(s.rows[i].id)
    case _ => NoIntent
  }

  const DefaultMessage: string := "Please enter anything else"

  /** The value a component constructor receives as `data`. */
  datatype ComponentData =
    | ObjectData(message: Nullish<string>) // an object, possibly without a `message` property
    | StringData(s: string)                // a string primitive
    | NullData

  /** `constructor(data = {})`: an `undefined` argument becomes `{}`. */
  function ConstructorData(arg: Nullish<string>): ComponentData
  {
    match arg
    case Undefined => ObjectData(Undefined)
    case Null => NullData
    case Present(s) => StringData(s)
  }

  /** `const { message } = data`: a string has no `message` property; destructuring `null` throws. */
  function MessageOf(data: ComponentData): Completion<Nullish<string>>
  {
    match data
    case ObjectData(m) => Normal(m)
    case StringData(_) => Normal(Undefined)
    case NullData => ThrowsTypeError
  }

  /** `NoResultsComponent.getTemplate`: the message shown, `message || DEFAULT_MESSAGE`. */
  function NoResultsText(data: ComponentData): Completion<string>
  {
    match MessageOf(data)
    case Normal(m) => Normal(OrString(m, DefaultMessage))
    case ThrowsTypeError => ThrowsTypeError
  }

  /** Given `{ message }`, the template shows a non-empty message and otherwise the default one. */
  lemma NoResultsTextOfObject(m: Nullish<string>)
    ensures m.Present? && m.value != "" ==> NoResultsText(ObjectData(m)) == Normal(m.value)
    ensures !(m.Present? && m.value != "") ==> NoResultsText(ObjectData(m)) == Normal(DefaultMessage)
  {
  }

  /**
   `showEmptyResults` hands the configured message itself to the component,
   so the configured message is never shown: the default one always is,
   unless the configured message is `null`, when construction throws.
   */
  lemma ConfiguredMessageNeverShown(configured: Nullish<string>)
    ensures configured != Null ==> NoResultsText(ConstructorData(configured)) == Normal(DefaultMessage)
    ensures configured == Null ==> NoResultsText(ConstructorData(configured)) == ThrowsTypeError
  {
  }
}

=== FILE: convert.dfy ===
/**
 The record converters and lookups of src/main.js: raw catalog records to
 widget items, one raw per-type response to an item list, an object of
 per-type responses to an object of item lists, and the two lookups the
 widget is wired to (the title search and the one-page load).
 */
module Convert {
  import opened JsValues
  import opened JsObject
  import opened Components
  import Api
  import Text

  /** A raw catalog record; the catalog always sends these four fields as strings. */
  datatype RawMovie = RawMovie(imdbID: string, title: string, year: string, poster: string)

  /** A raw per-type response: its `Search` list may be missing. */
  datatype RawType = RawType(search: Nullish<seq<RawMovie>>)

  const NoPoster: string := "N/A"

  /** `convertMovie`. */
  function ConvertMovie(raw: RawMovie): (item: Item)
    ensures item.id == raw.imdbID
    ensures item.title == raw.title + " (" + raw.year + ")"
    ensures item.img == Null <==> raw.poster == NoPoster
    ensures item.img != Null ==> item.img == Present(raw.poster)
  {
    Item(raw.imdbID, if raw.poster == NoPoster then Null else Present(raw.poster), raw.title + " (" + raw.year + ")")
  }

  /**
   A converted record's row shows the placeholder exactly when the poster is
   "N/A", and the poster itself otherwise, even when it is empty.
   */
  lemma ConvertedRowImage(raw: RawMovie)
    ensures raw.poster == NoPoster ==> ItemRow(ConvertMovie(raw)).image == Placeholder
    ensures raw.poster != NoPoster ==> ItemRow(ConvertMovie(raw)).image == raw.poster
    ensures ItemRow(ConvertMovie(raw)).id == raw.imdbID
  {
  }

  /** `convertType`: `(rawType.Search ?? []).map(convertMovie)`. */
  function ConvertType(raw: RawType): (items: seq<Item>)
    ensures !raw.search.Present? ==> items == []
    ensures raw.search.Present? ==> |items| == |raw.search.value|
    ensures raw.search.Present? ==>
      forall i | 0 <= i < |items| :: items[i] == ConvertMovie(raw.search.value[i])
  {
    var records := Coalesce(raw.search, []);
    seq(|records|, i requires 0 <= i < |records| => ConvertMovie(records[i]))
  }

  /**
   The `reduce` of `convertTypes` over the keys of `visit` still to come:
   each key is assigned its value on a copy of the accumulator. Visiting
   keys the accumulator lacks appends them in order and leaves the
   accumulator's entries alone.
   */
  function AssignEach<A, V>(visit: Obj<A>, acc: Obj<V>, f: string -> V): (r: Obj<V>)
    requires forall k | k in Keys(visit) :: k !in Keys(acc)
    ensures Keys(r) == Keys(acc) + Keys(visit)
    ensures forall k | k in Keys(visit) :: Get(r, k) == Present(f(k))
    ensures forall k | k !in Keys(visit) :: Get(r, k) == Get(acc, k)
    decreases |visit|
  {
    if |visit| == 0 then
      assert Keys(acc) + Keys(visit) == Keys(acc);
      acc
    else
      var k0 := visit[0].key;
      var acc' := Put(acc, k0, f(k0));
      var rest: Obj<A> := visit[1..];
      AssignEachNext(visit, acc, acc', f);
      var r := AssignEach(rest, acc', f);
      AssignEachStep(visit, acc, acc', r, f);
      r
  }

  /** The rest of the keys may be visited on top of the first key's assignment. */
  lemma AssignEachNext<A, V>(visit: Obj<A>, acc: Obj<V>, acc': Obj<V>, f: string -> V)
    requires |visit| > 0
    requires forall k | k in Keys(visit) :: k !in Keys(acc)
    requires acc' == Put(acc, visit[0].key, f(visit[0].key))
    ensures forall k | k in Keys(visit[1..]) :: k !in Keys(acc')
    ensures Keys(acc') == Keys(acc) + [visit[0].key]
  {
    assert Keys(visit) == [visit[0].key] + Keys(visit[1..]);
  }

  /** One visit of the `reduce`: the first key's assignment followed by the rest. */
  lemma AssignEachStep<A, V>(visit: Obj<A>, acc: Obj<V>, acc': Obj<V>, r: Obj<V>, f: string -> V)
    requires |visit| > 0
    requires Keys(acc') == Keys(acc) + [visit[0].key]
    requires acc' == Put(acc, visit[0].key, f(visit[0].key))
    requires Keys(r) == Keys(acc') + Keys(visit[1..])
    requires forall k | k in Keys(visit[1..]) :: Get(r, k) == Present(f(k))
    requires forall k | k !in Keys(visit[1..]) :: Get(r, k) == Get(acc', k)
    ensures Keys(r) == Keys(acc) + Keys(visit)
    ensures forall k | k in Keys(visit) :: Get(r, k) == Present(f(k))
    ensures forall k | k !in Keys(visit) :: Get(r, k) == Get(acc, k)
  {
    assert Keys(visit) == [visit[0].key] + Keys(visit[1..]);
    Reassociate(Keys(acc), [visit[0].key], Keys(visit[1..]));
  }

  /** `rawTypes[type]` for a key the object holds. */
  function RawAt(raws: Obj<RawType>, k: string): RawType
  {
    Coalesce(Get(raws, k), RawType(Undefined))
  }

  /**
   `convertTypes`: the same keys in the same order, each key's response
   converted on its own.
   */
  function ConvertTypes(raws: Obj<RawType>): (r: Obj<seq<Item>>)
    ensures Keys(r) == Keys(raws)
    ensures forall k | k in Keys(raws) :: Get(raws, k).Present? && Get(r, k) == Present(ConvertType(Get(raws, k).value))
    ensures forall k | k !in Keys(raws) :: Get(r, k) == Undefined
  {
    var empty: Obj<seq<Item>> := [];
    assert Keys(empty) == [];
    var r := AssignEach(raws, empty, k => ConvertType(RawAt(raws, k)));
    assert forall k | k in Keys(raws) :: Get(raws, k).Present? by {
      forall k | k in Keys(raws)
        ensures Get(raws, k).Present?
      {
        GetMissing(raws, k);
      }
    }
    r
  }

  /**
   The title search the widget is wired to: one lookup per type, each
   response converted and filed under its own type, in type order.
   */
  function FindAllByTitle(fetch: string -> RawType, value: string): (r: Obj<seq<Item>>)
    ensures Keys(r) == ["movie", "series", "episode"]
    ensures forall t: Api.ItemType ::
      Get(r, Api.TypeName(t)) == Present(ConvertType(fetch(Api.SearchUrl(t, value))))
  {
    var raws := Api.FindAllByTitle(fetch, value);
    var r := ConvertTypes(raws);
    assert forall t: Api.ItemType :: Api.TypeName(t) in Keys(raws) by {
      forall t: Api.ItemType
        ensures Api.TypeName(t) in Keys(raws)
      {
        GetMissing(raws, Api.TypeName(t));
      }
    }
    r
  }

  /** `{ s: value, page }`. */
  function PageParams(value: string, page: nat): (r: Obj<Api.Param>)
    ensures r == [Entry("s", Api.Str(value)), Entry("page", Api.Num(page))]
    ensures Keys(r) == ["s", "page"]
  {
    var tail := Singleton("page", Api.Num(page));
    Cons(Entry("s", Api.Str(value)), tail);
    [Entry("s", Api.Str(value))] + tail
  }

  /** The URL `loadMore(value, type, page)` fetches: the type, the text and the page, none of them escaped. */
  function PageUrl(value: string, t: Api.ItemType, page: nat): (url: string)
    ensures url == Api.BasePath + "?" + "apiKey=" + Api.ApiKey
      + "&" + "type=" + Api.TypeName(t) + "&" + "s=" + value + "&" + "page=" + Text.Decimal(page)
  {
    var params := Api.FindByTypeParams(t, PageParams(value, page));
    PageParamString(value, t, page);
    UrlPieces(Api.BasePath, "apiKey=", Api.ApiKey, "type=", Api.TypeName(t), "s=", value, "page=", Text.Decimal(page));
    Api.RequestUrl(params)
  }

  lemma PageParamString(value: string, t: Api.ItemType, page: nat)
    ensures Api.ParamString(Api.FindByTypeParams(t, PageParams(value, page)))
      == ("type=" + Api.TypeName(t)) + "&" + ("s=" + value) + "&" + ("page=" + Text.Decimal(page))
  {
    var params := Api.FindByTypeParams(t, PageParams(value, page));
    PageRequestParams(value, t, page);
    Api.NamesWithEquals();
    var a, b, c := "type=" + Api.TypeName(t), "s=" + value, "page=" + Text.Decimal(page);
    assert Api.Pairs(params) == [Api.Pair(params[0]), Api.Pair(params[1]), Api.Pair(params[2])];
    assert Api.Pair(params[0]) == a;
    assert Api.Pair(params[1]) == b;
    assert Api.Pair(params[2]) == c;
    Text.JoinThree(a, b, c, "&");
  }

  lemma UrlPieces(base: string, n0: string, v0: string, n1: string, v1: string, n2: string, v2: string, n3: string, v3: string)
    ensures base + "?" + (n0 + v0 + "&" + ((n1 + v1) + "&" + (n2 + v2) + "&" + (n3 + v3)))
      == base + "?" + n0 + v0 + "&" + n1 + v1 + "&" + n2 + v2 + "&" + n3 + v3
  {
  }

  /** A page request names the type, then the text, then the page number. */
  lemma PageRequestParams(value: string, t: Api.ItemType, page: nat)
    ensures Api.FindByTypeParams(t, PageParams(value, page))
      == [Entry("type", Api.Str(Api.TypeName(t))), Entry("s", Api.Str(value)), Entry("page", Api.Num(page))]
  {
  }

  /**
   A page request whose text needs no escaping and holds no tab or newline
   is sent whole and reads back on the server as the API key, the type, the
   text and the page number. Trailing spaces of the text survive: the page
   number comes after it.
   */
  lemma PageQueryReadsBack(value: string, t: Api.ItemType, page: nat)
    requires Api.SafeText(value) && Text.NoTabOrNewline(value)
    ensures Api.SentUrl(PageUrl(value, t, page)) == PageUrl(value, t, page)
    ensures Api.ParseQuery(Api.QueryString(Api.FindByTypeParams(t, PageParams(value, page))))
      == [("apiKey", Api.ApiKey), ("type", Api.TypeName(t)), ("s", value), ("page", Text.Decimal(page))]
  {
    var params := Api.FindByTypeParams(t, PageParams(value, page));
    PageSentWhole(value, t, page);
    PageRequestParams(value, t, page);
    PageNumberSafe(page);
    PageParamsSafe(value, t, page);
    Api.QueryStringRoundTrip(params);
    assert Api.Decoded(params) == [("type", Api.TypeName(t)), ("s", value), ("page", Text.Decimal(page))];
  }

  lemma PageSentWhole(value: string, t: Api.ItemType, page: nat)
    requires Api.SafeText(value) && Text.NoTabOrNewline(value)
    ensures Api.SentUrl(PageUrl(value, t, page)) == PageUrl(value, t, page)
  {
    PageNumberSafe(page);
    PageParamsSafe(value, t, page);
    PageParamsUnstripped(value, t, page);
    Api.SafeUrlSentWhole(Api.FindByTypeParams(t, PageParams(value, page)));
  }

  lemma PageNumberSafe(page: nat)
    ensures Api.SafeText(Text.Decimal(page))
  {
    Text.DecimalHasNo(page, '&');
    Text.DecimalHasNo(page, '#');
    Text.DecimalHasNo(page, '+');
    Text.DecimalHasNo(page, '%');
  }

  lemma FixedNamesSafe(t: Api.ItemType)
    ensures Api.SafeText("type") && '=' !in "type"
    ensures Api.SafeText("s") && '=' !in "s"
    ensures Api.SafeText("page") && '=' !in "page"
    ensures Api.SafeText(Api.TypeName(t))
  {
    match t
    case Movie => assert Api.SafeText("movie");
    case Series => assert Api.SafeText("series");
    case Episode => assert Api.SafeText("episode");
  }

  lemma PageParamsSafe(value: string, t: Api.ItemType, page: nat)
    requires Api.SafeText(value)
    requires Api.SafeText(Text.Decimal(page))
    ensures Api.SafeParams(Api.FindByTypeParams(t, PageParams(value, page)))
  {
    var params := Api.FindByTypeParams(t, PageParams(value, page));
    PageRequestParams(value, t, page);
    FixedNamesSafe(t);
    forall i | 0 <= i < |params|
      ensures Api.SafeText(params[i].key) && '=' !in params[i].key && Api.SafeText(Api.Stringify(params[i].val))
    {
      assert i == 0 || i == 1 || i == 2;
    }
  }

  /** Page parameters pass the URL parser untouched: the page number ends every page request. */
  lemma PageParamsUnstripped(value: string, t: Api.ItemType, page: nat)
    requires Text.NoTabOrNewline(value)
    ensures Api.Unstripped(Api.FindByTypeParams(t, PageParams(value, page)))
  {
    var params := Api.FindByTypeParams(t, PageParams(value, page));
    PageRequestParams(value, t, page);
    FixedNamesPlain(t);
    Text.DecimalHasNo(page, '\t');
    Text.DecimalHasNo(page, '\n');
    Text.DecimalHasNo(page, '\r');
    Text.DecimalEndsKept(page);
    forall i | 0 <= i < |params|
      ensures Text.NoTabOrNewline(params[i].key) && Text.NoTabOrNewline(Api.Stringify(params[i].val))
    {
      assert i == 0 || i == 1 || i == 2;
    }
  }

  lemma FixedNamesPlain(t: Api.ItemType)
    ensures Text.NoTabOrNewline("type") && Text.NoTabOrNewline("s") && Text.NoTabOrNewline("page")
    ensures Text.NoTabOrNewline(Api.TypeName(t))
  {
    Api.TypeNamePrintable(t);
    Text.PrintablePlain(Api.TypeName(t));
  }

  /**
   `loadMore(value, type, page)`: one page of one type, converted. The URL
   fetched names the type, then the text, then the page number.
   */
  function LoadPage(fetch: string -> RawType, value: string, t: Api.ItemType, page: nat): (items: seq<Item>)
    ensures items == ConvertType(fetch(Api.BasePath + "?" + "apiKey=" + Api.ApiKey
      + "&" + "type=" + Api.TypeName(t) + "&" + "s=" + value + "&" + "page=" + Text.Decimal(page)))
  {
    ConvertType(fetch(PageUrl(value, t, page)))
  }
}

=== FILE: debounce.dfy ===
/**
 `debounce(fn, delay)` of src/autocomplete/autocomplete.js: every call
 cancels the pending timer and arms a new one with its own arguments, so
 `fn` runs only when `delay` passes without a further call, and then with
 the arguments of the last call. Time is reduced to its one observable
 effect, the moment a pending timer runs out (`Elapse`).
 */
module Debounce {

  /** The closure's timer slot `t`: nothing pending, or a pending call with its arguments. */
  datatype Timer<A> = Idle | Armed(args: A)

  datatype Event<A> = Call(args: A) | Elapse

  /** The debounced function called: any pending timer is cleared and a new one armed. */
  function Invoke<A>(timer: Timer<A>, args: A): (r: Timer<A>)
    ensures r == Armed(args)
  {
    Armed(args)
  }

  /** The delay running out: a pending call reaches `fn`, and the slot is spent. */
  function Fire<A>(timer: Timer<A>): (r: (Timer<A>, seq<A>))
    ensures r.0 == Idle
    ensures timer.Armed? ==> r.1 == [timer.args]
    ensures timer.Idle? ==> r.1 == []
  {
    match timer
    case Idle => (Idle, [])
    case Armed(args) => (Idle, [args])
  }

  /** The calls `fn` receives for a sequence of events, and the timer left over. */
  function Run<A>(timer: Timer<A>, events: seq<Event<A>>): (Timer<A>, seq<A>)
    decreases |events|
  {
    if |events| == 0 then (timer, [])
    else
      match events[0]
      case Call(args) => Run(Invoke(timer, args), events[1..])
      case Elapse =>
        var (idle, fired) := Fire(timer);
        var (final, rest) := Run(idle, events[1..]);
        (final, fired + rest)
  }

  /** The arguments of the calls among the events, in order. */
  function CallArgs<A>(events: seq<Event<A>>): seq<A>
  {
    if |events| == 0 then []
    else (if events[0].Call? then [events[0].args] else []) + CallArgs(events[1..])
  }

  /** A burst of calls, each made before the previous one's delay ran out. */
  function Burst<A>(args: seq<A>): (events: seq<Event<A>>)
    ensures |events| == |args|
    ensures forall i | 0 <= i < |args| :: events[i] == Call(args[i])
  {
    seq(|args|, i requires 0 <= i < |args| => Call(args[i]))
  }

  lemma {:induction false} BurstArms<A>(timer: Timer<A>, args: seq<A>)
    requires |args| > 0
    ensures Run(timer, Burst(args)) == (Armed(args[|args| - 1]), [])
    decreases |args|
  {
    var events := Burst(args);
    assert events[1..] == Burst(args[1..]);
    if |args| > 1 {
      BurstArms(Invoke(timer, args[0]), args[1..]);
    }
  }

  /**
   However long the burst, once the delay runs out `fn` is called exactly
   once, with the arguments of the last call.
   */
  lemma BurstThenElapse<A>(timer: Timer<A>, args: seq<A>)
    requires |args| > 0
    ensures Run(timer, Burst(args) + [Elapse]) == (Idle, [args[|args| - 1]])
  {
    var last: seq<Event<A>> := [Elapse];
    BurstArms(timer, args);
    RunAppend(timer, Burst(args), last);
    assert last[1..] == [];
    assert Run(Idle, last[1..]) == (Idle, []);
    assert [args[|args| - 1]] + [] == [args[|args| - 1]];
    assert Run(Armed(args[|args| - 1]), last) == (Idle, [args[|args| - 1]]);
    assert [] + [args[|args| - 1]] == [args[|args| - 1]];
  }

  lemma {:induction false} RunAppend<A>(timer: Timer<A>, xs: seq<Event<A>>, ys: seq<Event<A>>)
    ensures Run(timer, xs + ys).1 == Run(timer, xs).1 + Run(Run(timer, xs).0, ys).1
    ensures Run(timer, xs + ys).0 == Run(Run(timer, xs).0, ys).0
    decreases |xs|
  {
    if |xs| == 0 {
      assert xs + ys == ys;
    } else {
      assert (xs + ys)[1..] == xs[1..] + ys;
      match xs[0]
      case Call(args) =>
        RunAppend(Invoke(timer, args), xs[1..], ys);
      case Elapse =>
        var (idle, fired) := Fire(timer);
        RunAppend(idle, xs[1..], ys);
        var a, b, c := fired, Run(idle, xs[1..]).1, Run(Run(idle, xs[1..]).0, ys).1;
        assert a + (b + c) == (a + b) + c;
    }
  }

  /** The arguments pending, if any. */
  function Pending<A>(timer: Timer<A>): seq<A>
  {
    if timer.Armed? then [timer.args] else []
  }

  /**
   Debouncing never adds calls: `fn` runs at most once per call of the
   debounced function, counting the one still pending, and only ever with
   arguments some call passed.
   */
  lemma {:induction false} RunNeverAddsCalls<A>(timer: Timer<A>, events: seq<Event<A>>)
    ensures |Run(timer, events).1| + |Pending(Run(timer, events).0)| <= |Pending(timer)| + |CallArgs(events)|
    ensures forall x | x in Run(timer, events).1 :: x in Pending(timer) || x in CallArgs(events)
    decreases |events|
  {
    if |events| > 0 {
      match events[0]
      case Call(args) =>
        RunNeverAddsCalls(Invoke(timer, args), events[1..]);
      case Elapse =>
        var (idle, fired) := Fire(timer);
        RunNeverAddsCalls(idle, events[1..]);
        assert Run(timer, events).1 == fired + Run(idle, events[1..]).1;
    }
  }
}

=== FILE: js_object.dfy ===
/**
 Plain JavaScript objects with string keys, as ordered association lists.
 `Object.keys` lists keys in insertion order; assigning to a key that is
 already present keeps its position, assigning to a new key appends it.
 (Keys that look like array indices are ordered differently by JavaScript;
 no object in this model has such keys.)
 */
module JsObject {
  import opened JsValues

  datatype Entry<V> = Entry(key: string, val: V)

  /** `Object.keys(o)`. */
  function Keys<V>(o: seq<Entry<V>>): seq<string>
  {
    if |o| == 0 then [] else [o[0].key] + Keys(o[1..])
  }

  predicate DistinctKeys<V>(o: seq<Entry<V>>)
  {
    |o| == 0 || (o[0].key !in Keys(o[1..]) && DistinctKeys(o[1..]))
  }

  /** An object: every key occurs at most once. */
  type Obj<V> = o: seq<Entry<V>> | DistinctKeys(o) witness []

  /** `o[k]`: `undefined` when the key is missing. */
  function Get<V>(o: seq<Entry<V>>, k: string): Nullish<V>
  {
    if |o| == 0 then Undefined
    else if o[0].key == k then Present(o[0].val)
    else Get(o[1..], k)
  }

  lemma Single<V>(e: Entry<V>)
    ensures Keys([e]) == [e.key]
    ensures DistinctKeys([e])
  {
    Cons(e, []);
  }

  /** `{ [k]: v }`. */
  function Singleton<V>(k: string, v: V): (r: Obj<V>)
    ensures r == [Entry(k, v)] && Keys(r) == [k]
  {
    Single(Entry(k, v));
    [Entry(k, v)]
  }

  lemma Cons<V>(e: Entry<V>, t: seq<Entry<V>>)
    ensures ([e] + t)[1..] == t
    ensures Keys([e] + t) == [e.key] + Keys(t)
    ensures DistinctKeys([e] + t) <==> e.key !in Keys(t) && DistinctKeys(t)
  {
    assert ([e] + t)[1..] == t;
  }

  lemma {:induction false} KeysIndex<V>(o: seq<Entry<V>>)
    ensures |Keys(o)| == |o|
    ensures forall i | 0 <= i < |o| :: Keys(o)[i] == o[i].key
  {
    if |o| > 0 {
      KeysIndex(o[1..]);
    }
  }

  lemma {:induction false} GetMissing<V>(o: seq<Entry<V>>, k: string)
    ensures k in Keys(o) <==> Get(o, k).Present?
    ensures k !in Keys(o) <==> Get(o, k) == Undefined
  {
    if |o| > 0 {
      GetMissing(o[1..], k);
    }
  }

  lemma {:induction false} GetEntry<V>(o: Obj<V>, i: nat)
    requires i < |o|
    ensures Get(o, o[i].key) == Present(o[i].val)
  {
    if i > 0 {
      GetEntry(o[1..], i - 1);
      KeysIndex(o[1..]);
      assert o[i].key in Keys(o[1..]);
    }
  }

  /** Index of a key that the object holds. */
  function Position<V>(o: seq<Entry<V>>, k: string): (p: nat)
    requires k in Keys(o)
    ensures p < |o| && o[p].key == k
  {
    if o[0].key == k then 0 else 1 + Position(o[1..], k)
  }

  /** `o[k] = v` on a copy of `o`. */
  function Put<V>(o: Obj<V>, k: string, v: V): (r: Obj<V>)
    ensures Keys(r) == if k in Keys(o) then Keys(o) else Keys(o) + [k]
    ensures Get(r, k) == Present(v)
    ensures forall k' | k' != k :: Get(r, k') == Get(o, k')
  {
    if |o| == 0 then
      Cons(Entry(k, v), []);
      [Entry(k, v)]
    else if o[0].key == k then
      Cons(Entry(k, v), o[1..]);
      [Entry(k, v)] + o[1..]
    else
      var tail := Put(o[1..], k, v);
      Cons(o[0], tail);
      [o[0]] + tail
  }

  /** The keys of `ks` that `present` lacks, in the order of `ks`. */
  function Missing(ks: seq<string>, present: seq<string>): seq<string>
  {
    if |ks| == 0 then []
    else (if ks[0] in present then [] else [ks[0]]) + Missing(ks[1..], present)
  }

  lemma {:induction false} MissingExtend(ks: seq<string>, present: seq<string>, k: string)
    requires k !in ks
    ensures Missing(ks, present + [k]) == Missing(ks, present)
  {
    if |ks| > 0 {
      MissingExtend(ks[1..], present, k);
    }
  }

  lemma MissingCons(k: string, ks: seq<string>, present: seq<string>)
    ensures Missing([k] + ks, present) == (if k in present then [] else [k]) + Missing(ks, present)
  {
    assert ([k] + ks)[1..] == ks;
  }

  lemma AssignKeysStep(ko: seq<string>, kp: seq<string>, ko': seq<string>)
    requires |kp| > 0 && kp[0] !in kp[1..]
    requires ko' == if kp[0] in ko then ko else ko + [kp[0]]
    ensures ko' + Missing(kp[1..], ko') == ko + Missing(kp, ko)
  {
    var k0, kt := kp[0], kp[1..];
    assert kp == [k0] + kt;
    var m := Missing(kt, ko);
    MissingCons(k0, kt, ko);
    assert Missing(kp, ko) == (if k0 in ko then [] else [k0]) + m;
    if k0 !in ko {
      MissingExtend(kt, ko, k0);
      assert (ko + [k0]) + m == ko + ([k0] + m);
    } else {
      assert [] + m == m;
    }
  }

  lemma AssignGetStep<V>(o: Obj<V>, p: Obj<V>, o': Obj<V>, r: Obj<V>)
    requires |p| > 0 && o' == Put(o, p[0].key, p[0].val)
    requires forall k :: Get(r, k) == if k in Keys(p[1..]) then Get(p[1..], k) else Get(o', k)
    ensures forall k :: Get(r, k) == if k in Keys(p) then Get(p, k) else Get(o, k)
  {
    forall k
      ensures Get(r, k) == if k in Keys(p) then Get(p, k) else Get(o, k)
    {
      if k != p[0].key && k !in Keys(p[1..]) {
        assert k !in Keys(p);
      }
    }
  }

  /** `{ ...o, ...p }`: the entries of `p` assigned onto a copy of `o`, one by one. */
  function Assign<V>(o: Obj<V>, p: Obj<V>): (r: Obj<V>)
    ensures Keys(r) == Keys(o) + Missing(Keys(p), Keys(o))
    ensures forall k :: Get(r, k) == if k in Keys(p) then Get(p, k) else Get(o, k)
    decreases |p|
  {
    if |p| == 0 then o
    else
      var o' := Put(o, p[0].key, p[0].val);
      var r := Assign(o', p[1..]);
      AssignKeysStep(Keys(o), Keys(p), Keys(o'));
      AssignGetStep(o, p, o', r);
      r
  }

  lemma Reassociate<T>(a: seq<T>, b: seq<T>, c: seq<T>)
    ensures (a + b) + c == a + (b + c)
  {
  }

  /** Assigning a key the object lacks appends it. */
  lemma {:induction false} PutAppends<V>(o: Obj<V>, k: string, v: V)
    requires k !in Keys(o)
    ensures Put(o, k, v) == o + [Entry(k, v)]
  {
    if |o| > 0 {
      PutAppends(o[1..], k, v);
      assert [o[0]] + (o[1..] + [Entry(k, v)]) == o + [Entry(k, v)];
    }
  }

  /** Spreading `p` over an object that shares no key with it appends `p`. */
  lemma {:induction false} AssignDisjoint<V>(o: Obj<V>, p: Obj<V>)
    requires forall k | k in Keys(p) :: k !in Keys(o)
    ensures DistinctKeys(o + p)
    ensures Assign(o, p) == o + p
    decreases |p|
  {
    if |p| == 0 {
      assert o + p == o;
    } else {
      var o' := Put(o, p[0].key, p[0].val);
      DisjointHead(o, p);
      AssignDisjoint(o', p[1..]);
      assert Assign(o, p) == Assign(o', p[1..]);
    }
  }

  /** Moving the first entry of a disjoint `p` onto `o` keeps the rest disjoint. */
  lemma DisjointHead<V>(o: Obj<V>, p: Obj<V>)
    requires |p| > 0
    requires forall k | k in Keys(p) :: k !in Keys(o)
    ensures Put(o, p[0].key, p[0].val) == o + [p[0]]
    ensures forall k | k in Keys(p[1..]) :: k !in Keys(Put(o, p[0].key, p[0].val))
    ensures (o + [p[0]]) + p[1..] == o + p
  {
    assert Keys(p) == [p[0].key] + Keys(p[1..]);
    PutAppends(o, p[0].key, p[0].val);
    assert Entry(p[0].key, p[0].val) == p[0];
    assert [p[0]] + p[1..] == p;
    Reassociate(o, [p[0]], p[1..]);
  }

  /** Spreading `p` after a single entry whose key `p` lacks puts that entry first. */
  lemma AssignPrepend<V>(first: Entry<V>, p: Obj<V>)
    requires DistinctKeys([first])
    requires first.key !in Keys(p)
    ensures DistinctKeys([first] + p)
    ensures Assign([first], p) == [first] + p
  {
    Cons(first, []);
    AssignDisjoint([first], p);
  }

  /** Spreading `p` after one entry: that entry's key comes first, the other keys read from `p`. */
  lemma AssignSingle<V>(first: Entry<V>, p: Obj<V>)
    requires DistinctKeys([first])
    ensures |Assign([first], p)| > 0 && Keys(Assign([first], p))[0] == first.key
    ensures forall k | k != first.key :: Get(Assign([first], p), k) == Get(p, k)
  {
    Cons(first, []);
    KeysIndex(Assign([first], p));
    forall k | k != first.key
      ensures Get(Assign([first], p), k) == Get(p, k)
    {
      GetMissing(p, k);
      assert Get([first], k) == Get([first][1..], k);
    }
  }
}

=== FILE: js_values.dfy ===
/**
 JavaScript values and operators that the widget's logic depends on:
 `undefined` and `null`, the nullish-coalescing operator `??` and the
 truthiness test behind `||` on strings.
 */
module JsValues {

  /** A value that may also be JavaScript's `undefined` or `null`. */
  datatype Nullish<+T> = Undefined | Null | Present(value: T)

  /** How an evaluation ends: normally with a value, or by throwing a `TypeError`. */
  datatype Completion<+T> = Normal(value: T) | ThrowsTypeError

  /** `v ?? d`: the default is used exactly when `v` is `null` or `undefined`. */
  function Coalesce<T>(v: Nullish<T>, d: T): T
  {
    match v
    case Present(x) => x
    case _ => d
  }

  /** A string is truthy exactly when it is not empty. */
  predicate Truthy(s: string)
  {
    s != ""
  }

  /** `s || d` for a possibly missing string: `d` when `s` is falsy. */
  function OrString(s: Nullish<string>, d: string): string
  {
    match s
    case Present(x) => if Truthy(x) then x else d
    case _ => d
  }
}

=== FILE: loader.dfy ===
/**
 The paginated loader of src/main.js (`createPaginatedMovieLoader`): one
 page counter and one "next page available" flag per type, and the text of
 the previous request.

 The loader starts with two objects of each kind, the initial ones and a
 copy of each, and the copies are the current ones. A request whose text
 differs from the previous one makes the current variables refer to the
 INITIAL objects themselves, not to fresh copies; `prevValue` starts out
 `undefined`, so this happens on the very first request. From then on the
 loader counts on the initial objects, which nothing ever resets: the page
 counters count every request of a type, whatever its text, and a flag once
 set stays set. `ResetCall` below is the loader with fresh copies on reset.
 */
module PageLoader {
  import opened JsValues
  import opened Components
  import opened Api

  /** One value per item type: the objects keyed by `ItemType.movie`, `.series`, `.episode`. */
  datatype PerType<T> = PerType(movie: T, series: T, episode: T)

  function At<T>(p: PerType<T>, t: ItemType): T
  {
    match t
    case Movie => p.movie
    case Series => p.series
    case Episode => p.episode
  }

  /** `p[t] = v` on the object `p`. */
  function With<T>(p: PerType<T>, t: ItemType, v: T): (r: PerType<T>)
    ensures At(r, t) == v
    ensures forall u | u != t :: At(r, u) == At(p, u)
  {
    match t
    case Movie => p.(movie := v)
    case Series => p.(series := v)
    case Episode => p.(episode := v)
  }

  function Uniform<T>(v: T): PerType<T>
  {
    PerType(v, v, v)
  }

  /**
   The loader's closure state. `currentIsInitial` records where the two
   `current*` variables point (they are always reassigned together): at the
   initial objects, or at the copies made when the loader was created.
   */
  datatype Loader = Loader(
    initialPages: PerType<nat>,
    copiedPages: PerType<nat>,
    initialAvailable: PerType<bool>,
    copiedAvailable: PerType<bool>,
    currentIsInitial: bool,
    prevValue: Nullish<string>)

  /** The loader as `createPaginatedMovieLoader()` returns it. */
  const Fresh: Loader := Loader(Uniform(1), Uniform(1), Uniform(false), Uniform(false), false, Undefined)

  /** The object `currentPageType` refers to. */
  function CurrentPages(l: Loader): PerType<nat>
  {
    if l.currentIsInitial then l.initialPages else l.copiedPages
  }

  /** The object `currentNextPageAvailable` refers to. */
  function CurrentAvailable(l: Loader): PerType<bool>
  {
    if l.currentIsInitial then l.initialAvailable else l.copiedAvailable
  }

  /** A request issued by the loader: its new state and the page it asks for. */
  datatype Issued = Issued(next: Loader, page: nat)

  /**
   One call `loader(value, type)`, up to the request it sends: on a text
   other than the previous one the current variables are pointed at the
   initial objects; then the current counter of the type is incremented and
   its new value is the page requested.
   */
  function Call(l: Loader, value: string, t: ItemType): (r: Issued)
    ensures r.page == At(CurrentPages(r.next), t)
    ensures r.next.prevValue == Present(value)
    ensures l.prevValue != Present(value) ==> r.next.currentIsInitial && r.page == At(l.initialPages, t) + 1
    ensures l.prevValue == Present(value) ==>
      r.next.currentIsInitial == l.currentIsInitial && r.page == At(CurrentPages(l), t) + 1
    ensures forall u | u != t ::
      At(CurrentPages(r.next), u) == if l.prevValue != Present(value) then At(l.initialPages, u) else At(CurrentPages(l), u)
    ensures r.next.currentIsInitial ==> r.next.copiedPages == l.copiedPages
    ensures r.next.copiedAvailable == l.copiedAvailable && r.next.initialAvailable == l.initialAvailable
  {
    var switched := if l.prevValue != Present(value) then l.(currentIsInitial := true) else l;
    var l1 := switched.(prevValue := Present(value));
    var page := At(CurrentPages(l1), t) + 1;
    var next := if l1.currentIsInitial then l1.(initialPages := With(l1.initialPages, t, page))
                else l1.(copiedPages := With(l1.copiedPages, t, page));
    Issued(next, page)
  }

  /** The loader after a page arrived, and the items handed on to the widget. */
  datatype Settled = Settled(next: Loader, items: seq<Item>)

  /**
   The `then` of a call, once the page of type `t` arrives: an empty page
   sets the current flag of the type. The items go back to the caller as
   they came.
   */
  function Settle(l: Loader, t: ItemType, items: seq<Item>): (r: Settled)
    ensures r.items == items
    ensures r.next.initialPages == l.initialPages && r.next.copiedPages == l.copiedPages
    ensures r.next.currentIsInitial == l.currentIsInitial && r.next.prevValue == l.prevValue
    ensures |items| == 0 ==> At(CurrentAvailable(r.next), t)
    ensures |items| > 0 ==> r.next == l
    ensures forall u | u != t :: At(CurrentAvailable(r.next), u) == At(CurrentAvailable(l), u)
  {
    var next :=
      if |items| == 0 then
        if l.currentIsInitial then l.(initialAvailable := With(l.initialAvailable, t, true))
        else l.(copiedAvailable := With(l.copiedAvailable, t, true))
      else l;
    Settled(next, items)
  }

  /** What the loader sees of the widget: a call, or the arrival of a page. */
  datatype LoadEvent = Request(value: string, t: ItemType) | Arrival(t: ItemType, items: seq<Item>)

  /** The pages requested by a sequence of events, in order, and the final state. */
  function Replay(l: Loader, events: seq<LoadEvent>): (Loader, seq<nat>)
    decreases |events|
  {
    if |events| == 0 then (l, [])
    else
      match events[0]
      case Request(value, t) =>
        var issued := Call(l, value, t);
        var (final, pages) := Replay(issued.next, events[1..]);
        (final, [issued.page] + pages)
      case Arrival(t, items) =>
        Replay(Settle(l, t, items).next, events[1..])
  }

  /** The types of the requests among the events, in order. */
  function RequestTypes(events: seq<LoadEvent>): seq<ItemType>
  {
    if |events| == 0 then []
    else (if events[0].Request? then [events[0].t] else []) + RequestTypes(events[1..])
  }

  /** How often `t` occurs in `ts`. */
  function Occurrences(ts: seq<ItemType>, t: ItemType): nat
  {
    if |ts| == 0 then 0 else (if ts[0] == t then 1 else 0) + Occurrences(ts[1..], t)
  }

  /** Until its first call the loader still points at the copies, and they agree with the initial objects. */
  ghost predicate Consistent(l: Loader)
  {
    !l.currentIsInitial ==> l.prevValue == Undefined && l.initialPages == l.copiedPages
  }

  lemma OccurrencesCons(t0: ItemType, ts: seq<ItemType>, j: nat, t: ItemType)
    requires j < |ts|
    ensures Occurrences(([t0] + ts)[..j + 2], t) == (if t0 == t then 1 else 0) + Occurrences(ts[..j + 1], t)
  {
    assert ([t0] + ts)[..j + 2][1..] == ts[..j + 1];
  }

  /**
   Replayed from a consistent state, the j-th request of a type asks for the
   page after the count the loader held for that type plus the requests of
   that type up to and including this one; the text of the requests plays
   no part, and neither do the arrivals.
   */
  lemma {:induction false} ReplayPages(l: Loader, events: seq<LoadEvent>)
    requires Consistent(l)
    ensures |Replay(l, events).1| == |RequestTypes(events)|
    ensures forall j | 0 <= j < |RequestTypes(events)| ::
      Replay(l, events).1[j] == At(CurrentPages(l), RequestTypes(events)[j])
        + Occurrences(RequestTypes(events)[..j + 1], RequestTypes(events)[j])
    decreases |events|
  {
    if |events| > 0 {
      var rest := events[1..];
      match events[0]
      case Request(value, t) =>
        var issued := Call(l, value, t);
        CallShifts(l, value, t);
        ReplayPages(issued.next, rest);
        var ts, ts' := RequestTypes(events), RequestTypes(rest);
        assert ts == [t] + ts';
        assert Replay(l, events).1 == [issued.page] + Replay(issued.next, rest).1;
        ShiftPages(CurrentPages(l), CurrentPages(issued.next), t, issued.page, Replay(issued.next, rest).1, ts');
      case Arrival(t, items) =>
        var settled := Settle(l, t, items).next;
        ReplayPages(settled, rest);
        assert RequestTypes(events) == RequestTypes(rest);
        assert Replay(l, events).1 == Replay(settled, rest).1;
        assert CurrentPages(settled) == CurrentPages(l);
    }
  }

  /** From a consistent state a call adds one to the current counter of its type and to no other. */
  lemma CallShifts(l: Loader, value: string, t: ItemType)
    requires Consistent(l)
    ensures Consistent(Call(l, value, t).next)
    ensures Call(l, value, t).page == At(CurrentPages(l), t) + 1
    ensures forall u :: At(CurrentPages(Call(l, value, t).next), u) == At(CurrentPages(l), u) + (if u == t then 1 else 0)
  {
  }

  /** The pages of a request followed by the rest, counted from the state before the request. */
  lemma ShiftPages(base: PerType<nat>, base': PerType<nat>, t: ItemType, page: nat, pages': seq<nat>, ts': seq<ItemType>)
    requires forall u :: At(base', u) == At(base, u) + (if u == t then 1 else 0)
    requires page == At(base, t) + 1
    requires |pages'| == |ts'|
    requires forall j | 0 <= j < |ts'| :: pages'[j] == At(base', ts'[j]) + Occurrences(ts'[..j + 1], ts'[j])
    ensures forall j | 0 <= j < |ts'| + 1 ::
      ([page] + pages')[j] == At(base, ([t] + ts')[j]) + Occurrences(([t] + ts')[..j + 1], ([t] + ts')[j])
  {
    var ts := [t] + ts';
    var pages := [page] + pages';
    forall j | 0 <= j < |ts|
      ensures pages[j] == At(base, ts[j]) + Occurrences(ts[..j + 1], ts[j])
    {
      if j == 0 {
        assert ts[..1] == [t];
      } else {
        var x := ts'[j - 1];
        assert pages[j] == pages'[j - 1] && ts[j] == x;
        assert pages'[j - 1] == At(base', x) + Occurrences(ts'[..j], x);
        assert At(base', x) == At(base, x) + (if x == t then 1 else 0);
        OccurrencesCons(t, ts', j - 1, x);
        assert ts[..j + 1] == ([t] + ts')[..j - 1 + 2];
      }
    }
  }

  /** From the loader as created, the j-th request of a type asks for page j + 1 of all time. */
  lemma FreshPages(events: seq<LoadEvent>)
    ensures |Replay(Fresh, events).1| == |RequestTypes(events)|
    ensures forall j | 0 <= j < |RequestTypes(events)| ::
      Replay(Fresh, events).1[j] == 1 + Occurrences(RequestTypes(events)[..j + 1], RequestTypes(events)[j])
  {
    ReplayPages(Fresh, events);
  }

  lemma {:induction false} OccurrencesSnoc(ts: seq<ItemType>, x: ItemType, t: ItemType)
    ensures Occurrences(ts + [x], t) == Occurrences(ts, t) + (if x == t then 1 else 0)
  {
    if |ts| > 0 {
      assert (ts + [x])[1..] == ts[1..] + [x];
      OccurrencesSnoc(ts[1..], x, t);
    } else {
      assert ts + [x] == [x];
    }
  }

  lemma {:induction false} OccurrencesGrow(ts: seq<ItemType>, i: nat, j: nat, t: ItemType)
    requires i <= j <= |ts|
    ensures Occurrences(ts[..i], t) <= Occurrences(ts[..j], t)
    decreases j - i
  {
    if i < j {
      OccurrencesGrow(ts, i, j - 1, t);
      assert ts[..j] == ts[..j - 1] + [ts[j - 1]];
      OccurrencesSnoc(ts[..j - 1], ts[j - 1], t);
    }
  }

  /** Over the loader's whole life, each request of a type asks for a later page than the one before. */
  lemma PagesIncrease(events: seq<LoadEvent>, i: nat, j: nat)
    requires i < j < |RequestTypes(events)|
    requires RequestTypes(events)[i] == RequestTypes(events)[j]
    ensures |Replay(Fresh, events).1| == |RequestTypes(events)|
    ensures Replay(Fresh, events).1[i] < Replay(Fresh, events).1[j]
  {
    FreshPages(events);
    var ts := RequestTypes(events);
    var t := ts[j];
    OccurrencesGrow(ts, i + 1, j, t);
    assert ts[..j + 1] == ts[..j] + [ts[j]];
    OccurrencesSnoc(ts[..j], ts[j], t);
  }

  /** The first call of all asks for page 2. */
  lemma FirstCallPage(value: string, t: ItemType)
    ensures Call(Fresh, value, t).page == 2
  {
  }

  /**
   A change of text does not restart the count: "abc" then "xyz" on the
   same type ask for pages 2 and 3.
   */
  lemma NoResetAfterValueChange()
    ensures Replay(Fresh, [Request("abc", Movie), Request("xyz", Movie)]).1 == [2, 3]
  {
    var first := Call(Fresh, "abc", Movie);
    var second := Call(first.next, "xyz", Movie);
    assert first.page == 2 && second.page == 3;
    assert [Request("abc", Movie), Request("xyz", Movie)][1..] == [Request("xyz", Movie)];
  }

  /** The flags only tell; the page a call asks for does not depend on them. */
  lemma FlagsNeverGate(l: Loader, flags: PerType<bool>, value: string, t: ItemType)
    ensures Call(l, value, t).page
      == Call(l.(initialAvailable := flags, copiedAvailable := flags), value, t).page
  {
  }

  /** Once a flag is set it stays set, through every call and arrival. */
  lemma FlagsStaySet(l: Loader, e: LoadEvent, u: ItemType)
    requires l.currentIsInitial && At(l.initialAvailable, u)
    ensures e.Request? ==> At(CurrentAvailable(Call(l, e.value, e.t).next), u)
    ensures e.Arrival? ==> At(CurrentAvailable(Settle(l, e.t, e.items).next), u)
  {
  }

  /**
   The loader with fresh copies on reset: a text other than the previous
   one starts every count and flag over, as on creation.
   */
  function ResetCall(l: Loader, value: string, t: ItemType): (r: Issued)
    ensures r.next.prevValue == Present(value)
    ensures l.prevValue != Present(value) ==> r.page == 2
    ensures l.prevValue != Present(value) ==> CurrentAvailable(r.next) == Uniform(false)
    ensures l.prevValue == Present(value) ==> r.page == At(CurrentPages(l), t) + 1
    ensures forall u | u != t ::
      At(CurrentPages(r.next), u) == if l.prevValue != Present(value) then 1 else At(CurrentPages(l), u)
  {
    var restarted :=
      if l.prevValue != Present(value)
      then l.(copiedPages := Uniform(1), copiedAvailable := Uniform(false), currentIsInitial := false)
      else l;
    Call(restarted.(prevValue := Present(value)), value, t)
  }

  /** With fresh copies, the first request for each new text asks for page 2 again. */
  lemma ResetCallRestarts(t: ItemType, u: ItemType)
    ensures ResetCall(ResetCall(Fresh, "abc", t).next, "xyz", u).page == 2
    ensures ResetCall(ResetCall(Fresh, "abc", t).next, "abc", t).page == 3
  {
    var first := ResetCall(Fresh, "abc", t);
    assert first.next.prevValue == Present("abc");
    assert At(CurrentPages(first.next), t) == 2;
  }
}

=== FILE: text.dfy ===
/**
 String operations. The program builds request URLs with
 `Array.prototype.join` and the decimal text of a non-negative integer as a
 template literal renders it. The rest is used only to read a request back:
 `String.prototype.split` with a one-character separator, which the model of
 a server's query parser uses, and the URL parser's clean-up of its input.
 */
module Text {

  /** `parts.join(sep)`. */
  function Join(parts: seq<string>, sep: string): string
  {
    if |parts| == 0 then ""
    else if |parts| == 1 then parts[0]
    else parts[0] + sep + Join(parts[1..], sep)
  }

  lemma JoinTwo(a: string, b: string, sep: string)
    ensures Join([a, b], sep) == a + sep + b
  {
    assert [a, b][1..] == [b];
  }

  lemma JoinThree(a: string, b: string, c: string, sep: string)
    ensures Join([a, b, c], sep) == a + sep + b + sep + c
  {
    assert [a, b, c][1..] == [b, c];
    assert [b, c][1..] == [c];
    assert Join([b, c], sep) == b + sep + c;
    assert Join([a, b, c], sep) == a + sep + (b + sep + c);
  }

  /** `s.split(c)`: never empty; `"".split(c)` is `[""]`. */
  function Split(s: string, c: char): (r: seq<string>)
    ensures |r| > 0
  {
    if |s| == 0 then [""]
    else
      var rest := Split(s[1..], c);
      if s[0] == c then [""] + rest
      else [[s[0]] + rest[0]] + rest[1..]
  }

  /** Splitting a text that holds no separator gives that text back. */
  lemma {:induction false} SplitNoSeparator(s: string, c: char)
    requires c !in s
    ensures Split(s, c) == [s]
  {
    if |s| > 0 {
      SplitNoSeparator(s[1..], c);
      assert [s[0]] + s[1..] == s;
    }
  }

  /** A separator-free head followed by the separator splits off exactly that head. */
  lemma {:induction false} SplitAfterHead(p: string, c: char, t: string)
    requires c !in p
    ensures Split(p + [c] + t, c) == [p] + Split(t, c)
  {
    if |p| == 0 {
      assert p + [c] + t == [c] + t;
      assert ([c] + t)[1..] == t;
    } else {
      var s := p + [c] + t;
      assert s[0] == p[0];
      assert s[1..] == p[1..] + [c] + t;
      SplitAfterHead(p[1..], c, t);
      assert [p[0]] + p[1..] == p;
    }
  }

  /** Splitting a join undoes it when no part holds the separator. */
  lemma {:induction false} SplitJoin(parts: seq<string>, c: char)
    requires |parts| > 0
    requires forall i | 0 <= i < |parts| :: c !in parts[i]
    ensures Split(Join(parts, [c]), c) == parts
  {
    if |parts| == 1 {
      SplitNoSeparator(parts[0], c);
    } else {
      SplitJoin(parts[1..], c);
      SplitAfterHead(parts[0], c, Join(parts[1..], [c]));
      assert [parts[0]] + parts[1..] == parts;
    }
  }

  /**
   The text before and after the first `c`; the whole text and "" when
   there is none.
   */
  function SplitAtFirst(s: string, c: char): (string, string)
  {
    if |s| == 0 then ("", "")
    else if s[0] == c then ("", s[1..])
    else
      var (a, b) := SplitAtFirst(s[1..], c);
      ([s[0]] + a, b)
  }

  lemma {:induction false} SplitAtFirstOf(a: string, c: char, b: string)
    requires c !in a
    ensures SplitAtFirst(a + [c] + b, c) == (a, b)
  {
    if |a| == 0 {
      assert a + [c] + b == [c] + b;
      assert ([c] + b)[1..] == b;
    } else {
      var s := a + [c] + b;
      assert s[1..] == a[1..] + [c] + b;
      SplitAtFirstOf(a[1..], c, b);
      assert [a[0]] + a[1..] == a;
    }
  }

  /** A text without `c` has nothing after it: all of the text comes before. */
  lemma {:induction false} SplitAtFirstNone(s: string, c: char)
    requires c !in s
    ensures SplitAtFirst(s, c) == (s, "")
  {
    if |s| > 0 {
      SplitAtFirstNone(s[1..], c);
      assert [s[0]] + s[1..] == s;
    }
  }

  /** A join holds `c` only if a part or the separator does. */
  lemma {:induction false} JoinAvoids(parts: seq<string>, sep: string, c: char)
    requires c !in sep
    requires forall i | 0 <= i < |parts| :: c !in parts[i]
    ensures c !in Join(parts, sep)
  {
    if |parts| > 1 {
      JoinAvoids(parts[1..], sep, c);
    }
  }

  predicate IsDigit(ch: char)
  {
    '0' <= ch <= '9'
  }

  function DigitChar(d: nat): char
    requires d < 10
  {
    ['0', '1', '2', '3', '4', '5', '6', '7', '8', '9'][d]
  }

  /** The decimal text of `n`, as `${n}` renders an integer-valued number. */
  function Decimal(n: nat): string
  {
    if n < 10 then [DigitChar(n)]
    else Decimal(n / 10) + [DigitChar(n % 10)]
  }

  /** The number a text of decimal digits denotes. */
  function DigitsValue(s: string): nat
    requires forall i | 0 <= i < |s| :: IsDigit(s[i])
  {
    if |s| == 0 then 0
    else
      assert IsDigit(s[|s| - 1]);
      10 * DigitsValue(s[..|s| - 1]) + (s[|s| - 1] as int - '0' as int)
  }

  /** The decimal text is non-empty, all digits, and reads back as `n`. */
  lemma {:induction false} DecimalRoundTrip(n: nat)
    ensures |Decimal(n)| > 0
    ensures forall i | 0 <= i < |Decimal(n)| :: IsDigit(Decimal(n)[i])
    ensures DigitsValue(Decimal(n)) == n
  {
    DigitCharValue(n % 10);
    if n >= 10 {
      DecimalRoundTrip(n / 10);
      var s := Decimal(n);
      assert s == Decimal(n / 10) + [DigitChar(n % 10)];
      assert s[..|s| - 1] == Decimal(n / 10);
      assert s[|s| - 1] == DigitChar(n % 10);
    }
  }

  lemma DigitCharValue(d: nat)
    requires d < 10
    ensures IsDigit(DigitChar(d))
    ensures DigitChar(d) as int - '0' as int == d
  {
  }

  /** No decimal text holds a character other than a digit. */
  lemma DecimalHasNo(n: nat, c: char)
    requires !IsDigit(c)
    ensures c !in Decimal(n)
  {
    DecimalRoundTrip(n);
  }

  /** The characters a URL parser strips from both ends of its input: C0 controls and the space. */
  predicate IsControlOrSpace(ch: char)
  {
    ch <= ' '
  }

  /** A text that holds no tab, line feed or carriage return. */
  predicate NoTabOrNewline(s: string)
  {
    '\t' !in s && '\n' !in s && '\r' !in s
  }

  /** A text that ends in a character the URL parser keeps. */
  predicate EndsKept(s: string)
  {
    |s| == 0 || !IsControlOrSpace(s[|s| - 1])
  }

  /** A text of visible characters only: no control and no space. */
  predicate Printable(s: string)
  {
    forall i | 0 <= i < |s| :: !IsControlOrSpace(s[i])
  }

  lemma PrintablePlain(s: string)
    requires Printable(s)
    ensures NoTabOrNewline(s) && EndsKept(s)
  {
    assert forall i | 0 <= i < |s| :: s[i] != '\t' && s[i] != '\n' && s[i] != '\r';
  }

  /** A text ending in a kept character makes any text it is appended to end in one. */
  lemma EndsKeptAppend(a: string, b: string)
    requires |b| > 0 && EndsKept(b)
    ensures |a + b| > 0 && EndsKept(a + b)
  {
    assert (a + b)[|a + b| - 1] == b[|b| - 1];
  }

  /** The text without its trailing controls and spaces. */
  function TrimEnd(s: string): string
  {
    if |s| > 0 && IsControlOrSpace(s[|s| - 1]) then TrimEnd(s[..|s| - 1]) else s
  }

  /** The text without its leading controls and spaces. */
  function TrimStart(s: string): string
  {
    if |s| > 0 && IsControlOrSpace(s[0]) then TrimStart(s[1..]) else s
  }

  /** The text with every tab, line feed and carriage return taken out. */
  function RemoveTabsAndNewlines(s: string): string
  {
    if |s| == 0 then ""
    else (if s[0] in "\t\n\r" then "" else [s[0]]) + RemoveTabsAndNewlines(s[1..])
  }

  /** Trimming stops at the first character that is kept. */
  lemma {:induction false} TrimEndAfter(a: string, b: string)
    requires |a| > 0 && !IsControlOrSpace(a[|a| - 1])
    ensures TrimEnd(a + b) == a + TrimEnd(b)
  {
    if |b| == 0 {
      assert a + b == a;
    } else if IsControlOrSpace(b[|b| - 1]) {
      assert (a + b)[..|a + b| - 1] == a + b[..|b| - 1];
      TrimEndAfter(a, b[..|b| - 1]);
    }
  }

  /** A text that ends in a kept character loses nothing at its end. */
  lemma TrimEndNone(s: string)
    requires EndsKept(s)
    ensures TrimEnd(s) == s
  {
  }

  /** A text that starts with a kept character loses nothing at its start. */
  lemma TrimStartNone(s: string)
    requires |s| > 0 && !IsControlOrSpace(s[0])
    ensures TrimStart(s) == s
  {
  }

  /** Taking out tabs and newlines works piece by piece. */
  lemma {:induction false} RemoveConcat(a: string, b: string)
    ensures RemoveTabsAndNewlines(a + b) == RemoveTabsAndNewlines(a) + RemoveTabsAndNewlines(b)
  {
    if |a| > 0 {
      assert (a + b)[1..] == a[1..] + b;
      RemoveConcat(a[1..], b);
    } else {
      assert a + b == b;
    }
  }

  /** A text without tabs and newlines is left as it is. */
  lemma {:induction false} RemoveNone(s: string)
    requires NoTabOrNewline(s)
    ensures RemoveTabsAndNewlines(s) == s
  {
    if |s| > 0 {
      assert s[0] !in "\t\n\r";
      assert NoTabOrNewline(s[1..]) by {
        assert forall ch | ch in s[1..] :: ch in s;
      }
      RemoveNone(s[1..]);
      assert [s[0]] + s[1..] == s;
    }
  }

  /** Splitting at the first `c` passes over a head without `c`. */
  lemma {:induction false} SplitAtFirstAfter(a: string, b: string, c: char)
    requires c !in a
    ensures SplitAtFirst(a + b, c) == (a + SplitAtFirst(b, c).0, SplitAtFirst(b, c).1)
  {
    if |a| > 0 {
      assert (a + b)[1..] == a[1..] + b;
      SplitAtFirstAfter(a[1..], b, c);
      assert [a[0]] + (a[1..] + SplitAtFirst(b, c).0) == a + SplitAtFirst(b, c).0;
    } else {
      assert a + b == b;
      assert a + SplitAtFirst(b, c).0 == SplitAtFirst(b, c).0;
    }
  }

  /** The last character of a join is the last character of its last part. */
  lemma {:induction false} JoinEnds(parts: seq<string>, sep: string)
    requires |parts| > 0 && |parts[|parts| - 1]| > 0
    ensures |Join(parts, sep)| > 0
    ensures Join(parts, sep)[|Join(parts, sep)| - 1] == parts[|parts| - 1][|parts[|parts| - 1]| - 1]
  {
    if |parts| > 1 {
      JoinEnds(parts[1..], sep);
    }
  }

  /** A decimal text ends in a digit, which no URL parser strips. */
  lemma DecimalEndsKept(n: nat)
    ensures |Decimal(n)| > 0 && !IsControlOrSpace(Decimal(n)[|Decimal(n)| - 1])
  {
    DecimalRoundTrip(n);
  }

  /** Trailing controls and spaces go however many there are. */
  lemma {:induction false} TrimEndPad(s: string, pad: string)
    requires forall i | 0 <= i < |pad| :: IsControlOrSpace(pad[i])
    ensures TrimEnd(s + pad) == TrimEnd(s)
  {
    if |pad| > 0 {
      assert (s + pad)[..|s + pad| - 1] == s + pad[..|pad| - 1];
      TrimEndPad(s, pad[..|pad| - 1]);
    } else {
      assert s + pad == s;
    }
  }

  /**
   Of a text with a "#" in it, the URL parser's clean-up keeps everything
   before the first "#" when that holds no tab or newline.
   */
  lemma CleanedBeforeHash(s: string, rest: string)
    requires '#' !in s && NoTabOrNewline(s)
    ensures SplitAtFirst(RemoveTabsAndNewlines(TrimEnd(s + "#" + rest)), '#').0 == s
  {
    var h := s + "#";
    assert h[|h| - 1] == '#';
    TrimEndAfter(h, rest);
    var y := TrimEnd(rest);
    RemoveNone(h);
    RemoveConcat(h, y);
    var z := RemoveTabsAndNewlines(y);
    assert h + z == s + ['#'] + z;
    SplitAtFirstOf(s, '#', z);
  }
}
